=== FILE: README.md ===
# stockmeter — a verified model of the quote pipeline and the dashboard's request queue

stockmeter is a stock dashboard. Three server routes sit in front of the Alpha Vantage
market-data provider:

- `/api/stock` answers with a quote;
- `/api/stock/history` answers with the last 30 daily bars;
- `/api/stock/search` answers with symbol matches.

Each route validates its parameter, requires the API key, and serves a fresh entry from
an in-memory time-to-live cache. Otherwise it calls the provider through a small adapter
and reshapes the answer. It stores the result only on success. Failures are mapped to
HTTP statuses by searching the error message for fixed markers; the first match wins.

The client dashboard fetches quotes through a rate-limited queue. Pending symbols are
fetched five at a time. A 60-second pause separates batches. The successful quotes are
upserted into the watch-list by symbol, and a counter tracks the remaining daily calls.

The model is purely functional Dafny:

- Every route is a function from the request parameter, the configured key, the cache,
  the current time and the provider's answer to a reply and the new cache.
- Every dashboard event is a transition on an immutable `State`.
- Fetch results, time and timer expiry are inputs.
- Everything the provider sends is an explicit JSON value (`Json.Json`).
- JavaScript's semantics are written out where the code relies on them:
  - truthiness;
  - property reads, where the last duplicate key wins;
  - reading a property of `null` throws;
  - the object `JSON.parse` builds from a text with a repeated key: the key keeps its
    first position and takes its last value;
  - `Object.entries` over such an object;
  - `String()`;
  - `includes`;
  - `trim`;
  - ASCII `toUpperCase`/`toLowerCase`;
  - `replace("%", "")`, which removes the first `%` only.

Modules, one per file:

| module | file | what it holds |
|---|---|---|
| `Outcomes` | outcomes.dfy | `Option`, `Result` |
| `Text` | text.dfy | substring search, ASCII case mapping, JavaScript `trim`, first-occurrence removal, lexicographic order, decimal rendering |
| `Json` | json.dfy | JSON values and the JavaScript operations the code applies to them |
| `TtlCache` | ttl_cache.dfy | the per-route cache and its hit rule |
| `Http` | http.dfy | statuses, reply bodies, the common request-parameter checks |
| `Failures` | failures.dfy | classification of a caught error, with a rule-table reference |
| `AlphaVantage` | alpha_vantage.dfy | the three fetchers' payload checks, `parseGlobalQuote` |
| `QuoteRoute`, `HistoryRoute`, `SearchRoute` | quote_route.dfy, history_route.dfy, search_route.dfy | the three `GET` handlers |
| `Watchlist` | watchlist.dfy | the watch-list merge as a key upsert, with `Latest` (symbol → quote map) as its meaning |
| `Dashboard` | dashboard.dfy | the queue state machine: drain, settle, cooldown, refresh, search, filter |
| `QueueRun` | queue_run.dfy | a whole queue run to idle: batches are the queue cut into fives |

How a few things are represented:

- **Dates** in the history series are `YYYY-MM-DD` strings. They are compared
  lexicographically, which is chronological for that format.
- **The history sort** is a stable insertion sort. The source's `Array.prototype.sort`
  is stable as well.
- **The processing flag.** The source keeps a boolean `processingQueue`. The model
  keeps a phase instead: idle, fetching a batch, or cooling down. The flag is
  "phase is not idle".
- **One drain is two transitions.** `Drain` takes the batch. `Settle` applies the
  outcomes once the fetches have finished. Other events can run in between, as they
  can during the source's `await`.

## Model

| member | source | states |
|---|---|---|
| TtlCache.PutThenGet | app/api/stock/route.ts:25-38 | an entry stored at time t is read back verbatim exactly while now − t is strictly below the time-to-live, and misses from then on |
| TtlCache.PutKeepsOtherKeys | app/api/stock/route.ts:38 | storing under one key leaves the lookup of every other key unchanged |
| TtlCache.GetMonotone | app/api/stock/route.ts:29 | expiry is final: a hit at a later time was the same hit at every earlier time |
| AlphaVantage.TimeSeriesRequest | lib/alpha-vantage.ts:33 | the daily series is requested for the given symbol, compact unless a size is given |
| AlphaVantage.Fetch | lib/alpha-vantage.ts:5-87 | a missing key fails with "API key not configured" whatever the provider would answer; a non-OK status fails with a message containing the status code; a transport failure or an unparseable body fails with its own message unchanged; a success carries exactly the parsed body, and neither marker is set in it |
| AlphaVantage.FetchPassesCleanPayloads | lib/alpha-vantage.ts:14-30 | a payload is returned unchanged if and only if the key is set, the status is OK, the body is not null, and neither "Error Message" nor "Information" is set |
| AlphaVantage.InformationIsThrown | lib/alpha-vantage.ts:25-28 | with "Error Message" unset, a set "Information" field makes every fetcher fail with exactly that field's text |
| AlphaVantage.ErrorMessageBeforeInformation | lib/alpha-vantage.ts:21-28 | when both markers are present, the thrown message is the "Error Message" text |
| AlphaVantage.ParseGlobalQuote | lib/alpha-vantage.ts:90-110 | fails with "No data found for symbol: X" exactly when "Global Quote" is falsy or has no keys; a null payload throws; it succeeds exactly when the payload is not null, the quote has a key and "10. change percent" is a string, and otherwise throws a `TypeError`; a success copies symbol, price, change and previous close from their own fields, the change percent without its first '%', and the time of the call |
| AlphaVantage.ParsedSymbolComesFromPayload | lib/alpha-vantage.ts:103 | on success the requested symbol has no influence on the parsed quote |
| AlphaVantage.ChangePercentDropsFirstPercent | lib/alpha-vantage.ts:100 | the change-percent text loses its first '%' only, and a text without '%' is unchanged |
| Text.RemoveFirstAt | lib/alpha-vantage.ts:100 | removing the first occurrence of a character deletes exactly the position of its first occurrence |
| Failures.ErrorReply | app/api/stock/route.ts:45-64 | every error reply has an error body; its status is 404 exactly for missing data, 429 exactly for rate limits, 500 otherwise; a rejected key says "API configuration error…", a rate limit says "API rate limit exceeded…", missing data gives the route's not-found text, any other error its own message, and a non-`Error` the route's fallback text |
| Failures.FirstMatch | app/api/stock/route.ts:46-61 | reference policy: yields nothing exactly when no rule fires, and otherwise the class of a rule that fires with no earlier rule firing |
| Failures.ClassifyFollowsRules | app/api/stock/route.ts:46-61 | the route's if-chain agrees with the first-match rule table on every message; an unmatched message keeps its own text |
| Failures.ClassifyPriority | app/api/stock/history/route.ts:74-85 | "Invalid API key" wins over every other marker, "call frequency" wins over "No data found", and a route without the not-found branch never answers missing data |
| QuoteRoute.Get | app/api/stock/route.ts:9-66 | a missing or empty symbol gives exactly the 400 reply and a missing key exactly the 500 reply, before the cache; every non-200 reply leaves the cache unchanged; a 200 reply is what is now stored under "stock_" + the upper-cased symbol, and no other key changes; the status is one of 200/400/404/429/500 |
| QuoteRoute.CacheHitServesStoredQuote | app/api/stock/route.ts:24-31 | a fresh entry is served verbatim, whatever the provider would have answered |
| QuoteRoute.MissStoresParsedQuote | app/api/stock/route.ts:33-40 | on a miss the parsed quote is returned and stored with the request time, overwriting a stale entry |
| QuoteRoute.RepeatWithinTtlIsServedFromCache | app/api/stock/route.ts:24-40 | a repeat request within five minutes of a fetched success gets the same reply, whatever the provider would answer |
| QuoteRoute.FailureIsClassified | app/api/stock/route.ts:33-62 | on a cache miss, a throwing fetch or parse answers the classified reply for the thrown message, with "Stock data not found for symbol: X" as the not-found text, and the cache is unchanged |
| QuoteRoute.RateLimitNoticeIsTooManyRequests | app/api/stock/route.ts:33-54 | a provider "Information" notice mentioning call frequency or a premium subscription, and not an invalid key, reaches the client as 429 "API rate limit exceeded…" and is not cached |
| QuoteRoute.MissingQuoteIsNotFound | app/api/stock/route.ts:57-58 | a payload without a quote becomes 404 "Stock data not found for symbol: X", and is never classified as a key or rate-limit failure |
| HistoryRoute.ToBar | app/api/stock/history/route.ts:48-55 | an entry fails exactly when its values are null; otherwise the bar carries the entry's date and its open, high, low, close and volume each from its own field |
| HistoryRoute.ToBars | app/api/stock/history/route.ts:48-55 | one bar per series entry, in entry order, each built from its own entry; fails exactly when some entry is null |
| HistoryRoute.SortIsOrderedPermutation | app/api/stock/history/route.ts:58 | the sort yields the same multiset of bars, newest first |
| Json.PropertiesSpec | app/api/stock/history/route.ts:48 | the object built from a field list lists each key once, exactly the keys the text spells, and reading a key gives the last value spelled for it |
| Json.OwnEntriesDistinctKeys | app/api/stock/history/route.ts:48 | `Object.entries` never yields the same key twice, for objects, arrays and strings alike |
| HistoryRoute.ReshapeKeepsMostRecent | app/api/stock/history/route.ts:47-63 | the result names the requested symbol and holds min(N, 30) bars, N being the number of distinct dates in the series; the bars are newest first, each built from a series entry; nothing left out is newer than anything kept; no date repeats |
| HistoryRoute.FailureIsClassified | app/api/stock/history/route.ts:33-86 | on a cache miss, a throwing fetch, or a series whose reshaping throws, answers the classified reply for the thrown message, and the cache is unchanged |
| HistoryRoute.RateLimitNoticeIsTooManyRequests | app/api/stock/history/route.ts:33-82 | a provider rate-limit "Information" notice reaches the client as 429 "API rate limit exceeded…" and is not cached |
| HistoryRoute.CatchReply | app/api/stock/history/route.ts:69-89 | the catch clause answers only 429 or 500: it has no 404 branch |
| HistoryRoute.Get | app/api/stock/history/route.ts:9-90 | the 400 and 500 guards come first; non-200 replies leave the cache unchanged; a 200 reply is stored under "history_" + the upper-cased symbol, and only that key changes; every 404 is "No historical data found for symbol: X", so the branch on "Error Message" can never answer |
| HistoryRoute.MissServesReshapedHistory | app/api/stock/history/route.ts:32-68 | on a miss, a fetched series is served with 200 and stored with the request time; the reply names the upper-cased symbol and holds min(N, 30) bars, N being the number of distinct dates, newest first, each built from a series entry, with no date twice |
| HistoryRoute.MissingSeriesIsNotFound | app/api/stock/history/route.ts:40-45 | a payload without "Time Series (Daily)" is a 404 and is not cached |
| HistoryRoute.CacheHitServesStoredHistory | app/api/stock/history/route.ts:23-30 | a fresh entry is served verbatim, whatever the provider would have answered |
| HistoryRoute.ServedHistoryNamesSymbol | app/api/stock/history/route.ts:60-68 | the handler keeps every entry under its own symbol's key, so every 200 reply, hit or miss, names the upper-cased requested symbol |
| HistoryRoute.ServedHistoryIsWellFormed | app/api/stock/history/route.ts:23-68 | if every cached history has at most 30 bars, newest first, with no repeated date, then so does every 200 reply and the cache afterwards |
| HistoryRoute.HistoryKeyInjective | app/api/stock/history/route.ts:24 | distinct symbols have distinct cache keys |
| SearchRoute.SearchKeyIgnoresCase | app/api/stock/search/route.ts:24 | two queries share a cache key if and only if they differ only in ASCII letter case |
| SearchRoute.ProjectAll | app/api/stock/search/route.ts:38-44 | one projected match per provider match, same order, each projected from its own match; fails exactly when some match is null |
| SearchRoute.ResultsProjectEachMatch | app/api/stock/search/route.ts:35-45 | a missing or falsy match list gives an empty result; a list of non-null matches gives one result per match, copying symbol, name, type, region and currency |
| SearchRoute.FailureIsClassified | app/api/stock/search/route.ts:33-68 | on a cache miss, a throwing fetch, or a match list whose projection throws, answers the classified reply for the thrown message, and the cache is unchanged |
| SearchRoute.RateLimitNoticeIsTooManyRequests | app/api/stock/search/route.ts:33-64 | a provider rate-limit "Information" notice reaches the client as 429 "API rate limit exceeded…" and is not cached |
| SearchRoute.CatchReply | app/api/stock/search/route.ts:51-71 | the catch clause answers only 429 or 500 |
| SearchRoute.Get | app/api/stock/search/route.ts:9-72 | the 400 and 500 guards come first; non-200 replies leave the cache unchanged; a 200 reply is stored under "search_" + the lower-cased query, and only that key changes; the route never answers 404 |
| SearchRoute.CacheHitServesStoredResults | app/api/stock/search/route.ts:23-30 | a fresh entry is served verbatim, whatever the provider would have answered |
| SearchRoute.MissServesProjectedMatches | app/api/stock/search/route.ts:32-50 | on a miss, the projection of the provider's matches is served with 200 and stored under the lower-cased query with the request time |
| SearchRoute.NoMatchesIsEmptySuccess | app/api/stock/search/route.ts:35-50 | an answer without "bestMatches" is a 200 with no results, and that empty result is cached |
| SearchRoute.CaseVariantServedFromCache | app/api/stock/search/route.ts:23-30 | within a day of a fetched search, the query in any letter case gets the same reply without reaching the provider |
| Watchlist.LatestAppend | components/stock-dashboard.tsx:71-72 | in the symbol → quote meaning of a list, a later quote overrides an earlier one for the same symbol |
| Watchlist.MergeSpec | components/stock-dashboard.tsx:69-74 | the merged list has no repeated symbol; its meaning is the old map overridden by the new quotes; its symbols are the union; old symbols keep their positions; old quotes not re-fetched are kept |
| Watchlist.MergeIsKeyedUpsert | components/stock-dashboard.tsx:69-74 | every re-fetched symbol shows its last new quote, every other old symbol keeps its quote, and no other symbol appears |
| Dashboard.Drain | components/stock-dashboard.tsx:48-58 | no-op while processing or with nothing pending; otherwise the batch is the first min(5, n) pending symbols, batch + rest is the old queue, and nothing else changes |
| Dashboard.DrainTakesPrefix | components/stock-dashboard.tsx:49-57 | a drain changes the state if and only if it is idle with symbols pending, and then it fetches exactly the first min(5, n) symbols and keeps the rest in order |
| Dashboard.SingleFlight | components/stock-dashboard.tsx:49-51 | while a batch is in flight or cooling down, a drain is a no-op and neither a search nor a refresh starts another batch |
| Dashboard.Settle | components/stock-dashboard.tsx:60-87 | the new watch-list has no repeats and means the old map overridden by this batch's successes; the budget drops by the batch size, floored at zero; symbols already listed keep their positions; the flag stays set exactly when symbols remain pending; the pending symbols and the searched symbol are unchanged; a batch without failures keeps the previous error |
| Dashboard.SuccessesAreReceivedQuotes | components/stock-dashboard.tsx:60-67 | the merged results are exactly the received quotes |
| Dashboard.FailureIsDropped | components/stock-dashboard.tsx:60-67 | a failed fetch changes nothing for its siblings: the results equal those of the batch without it |
| Dashboard.SettleShowsLastFailure | components/stock-dashboard.tsx:60-111 | after a batch settles, the error displayed is the message of its last failed fetch, and the previous error when every fetch succeeded |
| Dashboard.LastFailureIsLatest | components/stock-dashboard.tsx:96-111 | the error shown is the last failure's message: the reply's error field, else "Failed to fetch data for X", else the exception's message |
| Dashboard.BudgetCountsAttempts | components/stock-dashboard.tsx:77 | the remaining-calls counter does not depend on the outcomes and equals max(0, previous − batch size) |
| Dashboard.RefreshPendsDefaults | components/stock-dashboard.tsx:114-125 | a full refresh clears the error and keeps the watch-list; the pending symbols become exactly the five defaults, discarding what was pending and not re-adding the searched symbol |
| Text.TrimEmptyIffBlank | components/stock-dashboard.tsx:130 | a query trims to the empty string exactly when every character is JavaScript whitespace |
| Dashboard.SearchAppendsQuery | components/stock-dashboard.tsx:127-138 | a whitespace-only query changes nothing; any other query, upper-cased, becomes the searched symbol and joins the end of the pending symbols |
| Dashboard.VisibleMatchesSearch | components/stock-dashboard.tsx:186 | a stock is displayed exactly when it is in the watch-list and either no symbol was searched or its symbol contains the searched one |
| Dashboard.EventsPreserveValid | components/stock-dashboard.tsx:43-138 | the initial state and every event keep the invariants: the watch-list has no repeats, the counter is at most 25, a batch holds 1 to 5 symbols, and a pause has symbols waiting |
| QueueRun.ChunksPartitionQueue | components/stock-dashboard.tsx:57 | cutting the queue into batches keeps every symbol in order; every batch but the last holds exactly 5; there are ceil(n/5) batches |
| QueueRun.RunFollowsChunks | components/stock-dashboard.tsx:48-94 | a queue of n symbols drained from idle is fetched as ceil(n/5) consecutive batches with a pause between each two; it ends idle with nothing pending and n calls charged; each symbol shows its last successful quote |
| QueueRun.TwelveSymbols | components/stock-dashboard.tsx:57-84 | twelve pending symbols drain as batches of 5, 5 and 2 with two pauses, leaving 13 of 25 calls |

## Left out

- HTTP itself is left out. This covers `fetch`, URL building, `NextResponse` and reading the environment. The provider's answer is the input `Upstream`. The API key is an `Option<string>`.
- `Number.parseFloat` and `Number.parseInt` are left out. The quote and bar fields keep the raw provider value these functions would be applied to. Floating point is outside the model.
- `Date.now()` and `new Date().toISOString()` are parameters (`now`, `clock`).
- `setTimeout` and `setInterval` are left out. The 60-second pause ending is the event `Dashboard.CooldownElapsed`. The 5-minute interval is a call of `Dashboard.RefreshAll`.
- The history sort's `new Date(...)` parsing is replaced by lexicographic order on the date strings. The two agree for the provider's `YYYY-MM-DD` keys.
- Concurrency is left out. This covers `Promise.allSettled`, the order in which a batch's fetches resolve, and how React batches state updates. A batch's outcomes are a sequence in batch order.
- Dashboard.LastFailureIsLatest and Dashboard.SettleShowsLastFailure: the model takes the last failure in batch order as the error shown. The source shows the failure that resolved last, which depends on timing.
- The `catch` in `processApiQueue` is left out. Nothing in its `try` block can throw once fetch failures have become `null` results. The model therefore always clears the loading flag and follows the normal path.
- The effect keyed on the queue ref's length is left out. Mutating a ref does not re-render, so the effect only repeats the drain that each enqueuing event already performs.
- The search-as-you-type suggestions (`searchSymbols` and its 500 ms debounce) are left out. They are a display aid and do not touch the queue or the watch-list.
- Rendering is left out: the chart, the table, the page, `toFixed` formatting and the diagnostic `test-api-key` route.
- Case mapping is ASCII only. `toUpperCase` and `toLowerCase` on non-ASCII letters are not modelled.
- The exact texts of JavaScript's own `TypeError` messages are not modelled. `Json.TypeErrorMessage` stands for the message of a property read on `null`. `SearchRoute.NotAFunctionText` stands for `.map` called on a non-array. Both are classified like any other message; neither contains one of the markers.
- In the model every thrown value is an `Error`. The routes' last fallback replies ("Failed to fetch stock data" and the like) are modelled in `Failures.ErrorReply`, but no modelled path reaches them.
- The routes never answer 401: a rejected key becomes a 500 (`Failures.ErrorReply`).
- A full refresh does not re-add the searched symbol (`Dashboard.RefreshPendsDefaults`).
- `Object.entries` lists integer-like keys first, in ascending order, before the other keys. The model keeps text order for every key. The only enumerated keys whose order matters are the history series' dates, and they are not integer-like; the quote's keys are only counted.
- Dashboard.VisibleMatchesSearch: a quote is assumed to carry a string symbol (`Watchlist.StockData.symbol` is a string). In the source, quotes lacking "01. symbol" would share the map key `undefined` (components/stock-dashboard.tsx:71-72), and the filter's `includes` would throw on them (components/stock-dashboard.tsx:186).

=== FILE: alpha_vantage.dfy ===
/** The provider adapter: the three fetchers share one sequence of checks on the
    provider's answer, and `ParseGlobalQuote` turns a quote payload into the quote
    the dashboard shows. The HTTP exchange itself is an input (`Upstream`). */
module AlphaVantage {
  import opened Outcomes
  import opened Text
  import opened Json
  import Http

  datatype OutputSize = Compact | Full

  /** Which provider function is called, with its parameters; it only shapes the URL. */
  datatype Request =
    | GlobalQuote(symbol: string)
    | TimeSeriesDaily(symbol: string, outputSize: OutputSize)
    | SymbolSearch(keywords: string)

  /** `fetchTimeSeriesDaily(symbol, outputSize?)`: the size defaults to compact. */
  function TimeSeriesRequest(symbol: string, outputSize: Option<OutputSize>): (r: Request)
    ensures r.TimeSeriesDaily? && r.symbol == symbol
    ensures outputSize.None? ==> r.outputSize == Compact
    ensures outputSize.Some? ==> r.outputSize == outputSize.value
  {
    TimeSeriesDaily(symbol, if outputSize.Some? then outputSize.value else Compact)
  }

  /** The body as `response.json()` sees it. */
  datatype ResponseBody = Parsed(json: Json) | Malformed(message: string)

  /** What `fetch` produced: a rejection, or a response with its status and body. */
  datatype Upstream =
    | NetworkError(message: string)
    | Responded(status: nat, body: ResponseBody)

  /** `ALPHA_VANTAGE_API_KEY` is truthy: present and not empty. */
  predicate KeyConfigured(apiKey: Option<string>) {
    apiKey.Some? && apiKey.value != ""
  }

  const KeyMissingText := "API key not configured"
  const StatusText := "Alpha Vantage API responded with status: "
  const ErrorMessageField := "Error Message"
  const InformationField := "Information"

  /** `fetchGlobalQuote`, `fetchTimeSeriesDaily` and `searchSymbol`: key check, then
      transport status, then the "Error Message" marker, then "Information". */
  function Fetch(request: Request, apiKey: Option<string>, upstream: Upstream): (r: Result<Json>)
    ensures !KeyConfigured(apiKey) ==> r == Err(KeyMissingText)
    ensures KeyConfigured(apiKey) && upstream.Responded? && !Http.IsOk(upstream.status) ==>
      r.Err? && Contains(r.message, NatToString(upstream.status))
    ensures KeyConfigured(apiKey) && upstream.NetworkError? ==> r == Err(upstream.message)
    ensures KeyConfigured(apiKey) && upstream.Responded? && Http.IsOk(upstream.status) && upstream.body.Malformed? ==>
      r == Err(upstream.body.message)
    ensures r.Ok? ==> upstream.Responded? && upstream.body == Parsed(r.value)
    ensures r.Ok? ==> !Truthy(Member(r.value, ErrorMessageField)) && !Truthy(Member(r.value, InformationField))
  {
    if !KeyConfigured(apiKey) then Err(KeyMissingText)
    else match upstream
      case NetworkError(m) => Err(m)
      case Responded(status, body) =>
        if !Http.IsOk(status) then
          ContainsSuffix(StatusText, NatToString(status));
          Err(StatusText + NatToString(status))
        else match body
          case Malformed(m) => Err(m)
          case Parsed(data) =>
            if data.JNull? then Err(TypeErrorMessage)
            else if Truthy(Member(data, ErrorMessageField)) then Err(ToJsString(Member(data, ErrorMessageField).value))
            else if Truthy(Member(data, InformationField)) then Err(ToJsString(Member(data, InformationField).value))
            else Ok(data)
  }

  /** A payload is handed back exactly when the key is set, the transport succeeded,
      the body parsed to a non-null value and neither marker is set; it is handed
      back unchanged. */
  lemma FetchPassesCleanPayloads(request: Request, apiKey: Option<string>, status: nat, data: Json)
    ensures Fetch(request, apiKey, Responded(status, Parsed(data))) == Ok(data) <==>
      KeyConfigured(apiKey) && Http.IsOk(status) && !data.JNull?
      && !Truthy(Member(data, ErrorMessageField)) && !Truthy(Member(data, InformationField))
  {
  }

  /** The "Error Message" marker is checked before "Information": when both are set,
      the thrown message is the error text. */
  lemma ErrorMessageBeforeInformation(request: Request, apiKey: Option<string>, status: nat, data: Json, text: string)
    requires KeyConfigured(apiKey) && Http.IsOk(status)
    requires Member(data, ErrorMessageField) == Some(JStr(text)) && text != ""
    ensures Fetch(request, apiKey, Responded(status, Parsed(data))) == Err(text)
  {
  }

  /** A payload whose "Information" is set while "Error Message" is not makes every
      fetcher throw the "Information" text (the provider's rate-limit notice arrives
      this way). */
  lemma InformationIsThrown(request: Request, apiKey: Option<string>, status: nat, data: Json, info: Json)
    requires KeyConfigured(apiKey) && Http.IsOk(status)
    requires !Truthy(Member(data, ErrorMessageField))
    requires Member(data, InformationField) == Some(info) && Truthy(Some(info))
    ensures Fetch(request, apiKey, Responded(status, Parsed(data))) == Err(ToJsString(info))
  {
  }

  /** The quote the dashboard receives. Numeric fields hold the provider's raw value
      that `Number.parseFloat` is applied to; `changePercent` is the text handed to it. */
  datatype Quote = Quote(
    symbol: Option<Json>,
    price: Option<Json>,
    change: Option<Json>,
    changePercent: string,
    previousClose: Option<Json>,
    lastUpdated: string)

  function NoDataText(symbol: string): string {
    "No data found for symbol: " + symbol
  }

  /** `data["Global Quote"]` is falsy or has no keys. */
  predicate QuoteMissing(data: Json) {
    var quote := Member(data, "Global Quote");
    !Truthy(quote) || |OwnEntries(quote.value)| == 0
  }

  /** `parseGlobalQuote(data, symbol)`; `lastUpdated` is the ISO time of the call. */
  function ParseGlobalQuote(data: Json, symbol: string, lastUpdated: string): (r: Result<Quote>)
    ensures data.JNull? ==> r == Err(TypeErrorMessage)
    ensures r == Err(NoDataText(symbol)) <==> !data.JNull? && QuoteMissing(data)
    ensures r.Ok? ==> (
      && !QuoteMissing(data)
      && r.value.symbol == Member(Member(data, "Global Quote").value, "01. symbol")
      && r.value.price == Member(Member(data, "Global Quote").value, "05. price")
      && r.value.lastUpdated == lastUpdated)
    ensures r.Ok? <==>
      && !data.JNull? && !QuoteMissing(data)
      && var percent := Member(Member(data, "Global Quote").value, "10. change percent");
      && percent.Some? && percent.value.JStr?
    ensures !data.JNull? && !QuoteMissing(data) && r.Err? ==> r == Err(TypeErrorMessage)
    ensures r.Ok? ==>
      var quote := Member(data, "Global Quote").value;
      r.value == Quote(Member(quote, "01. symbol"), Member(quote, "05. price"), Member(quote, "09. change"),
                       RemoveFirst(Member(quote, "10. change percent").value.s, '%'),
                       Member(quote, "08. previous close"), lastUpdated)
  {
    assert TypeErrorMessage[0] != NoDataText(symbol)[0];
    if data.JNull? then Err(TypeErrorMessage)
    else if QuoteMissing(data) then Err(NoDataText(symbol))
    else
      var quote := Member(data, "Global Quote").value;
      match Member(quote, "10. change percent")
      case Some(JStr(percent)) =>
        Ok(Quote(
          Member(quote, "01. symbol"),
          Member(quote, "05. price"),
          Member(quote, "09. change"),
          RemoveFirst(percent, '%'),
          Member(quote, "08. previous close"),
          lastUpdated))
      case _ => Err(TypeErrorMessage)
  }

  /** The quote's symbol comes from the payload's "01. symbol": on success the
      requested symbol has no influence on the result. */
  lemma ParsedSymbolComesFromPayload(data: Json, requested: string, other: string, lastUpdated: string)
    requires ParseGlobalQuote(data, requested, lastUpdated).Ok?
    ensures ParseGlobalQuote(data, other, lastUpdated) == ParseGlobalQuote(data, requested, lastUpdated)
  {
  }

  /** Only the first '%' of the change-percent text is removed; a text without '%'
      is passed on unchanged. */
  lemma ChangePercentDropsFirstPercent(data: Json, symbol: string, lastUpdated: string, raw: string, i: nat)
    requires ParseGlobalQuote(data, symbol, lastUpdated).Ok?
    requires Member(Member(data, "Global Quote").value, "10. change percent") == Some(JStr(raw))
    ensures '%' !in raw ==> ParseGlobalQuote(data, symbol, lastUpdated).value.changePercent == raw
    ensures i < |raw| && raw[i] == '%' && '%' !in raw[..i] ==>
      ParseGlobalQuote(data, symbol, lastUpdated).value.changePercent == raw[..i] + raw[i + 1..]
  {
    if '%' !in raw {
      RemoveFirstAbsent(raw, '%');
    }
    if i < |raw| && raw[i] == '%' && '%' !in raw[..i] {
      RemoveFirstAt(raw, '%', i);
    }
  }
}

=== FILE: dashboard.dfy ===
/** The dashboard's rate-limited request queue. Pending symbols are drained five at a
    time; while a batch is being fetched, or during the 60-second pause that follows a
    batch when symbols remain, further drain requests do nothing. Each event of the
    source is a transition on `State`; fetch outcomes and timer expiry are inputs. */
module Dashboard {
  import opened Outcomes
  import opened Text
  import opened Watchlist

  const DefaultSymbols: seq<string> := ["AAPL", "MSFT", "GOOGL", "AMZN", "META"]

  /** Symbols fetched per batch. */
  const BatchSize: nat := 5

  /** The provider's free-tier daily call budget the counter starts from. */
  const DailyCallBudget: nat := 25

  /** Where the drain loop is; the source's `processingQueue` flag is `!Idle?`. */
  datatype Phase =
    | Idle
    | Fetching(batch: seq<string>)   // the batch taken off the queue, awaiting its fetches
    | CoolingDown                    // waiting for the 60-second timer

  datatype State = State(
    stocks: seq<StockData>,
    queue: seq<string>,
    phase: Phase,
    callsRemaining: nat,
    error: Option<string>,
    loading: bool,
    searchSymbol: string)

  predicate Processing(s: State) {
    !s.phase.Idle?
  }

  /** The state when the dashboard mounts, before its first refresh. */
  const Initial := State([], [], Idle, DailyCallBudget, None, true, "")

  /** What `fetchStockData(symbol)` met: the quote, an error reply (with the reply's
      `error` field, if any), or an exception. */
  datatype QuoteFetch =
    | Received(stock: StockData)
    | ErrorStatus(errorField: Option<string>)
    | Failed(message: string)

  /** The message `fetchStockData` reports for a failed fetch, or `None` on success. */
  function FailureMessage(symbol: string, outcome: QuoteFetch): Option<string> {
    match outcome
    case Received(_) => None
    case ErrorStatus(field) =>
      if field.Some? && field.value != "" then Some(field.value)
      else Some("Failed to fetch data for " + symbol)
    case Failed(m) => Some(m)
  }

  /** The fulfilled, non-null results, in batch order. */
  function Successes(outcomes: seq<QuoteFetch>): seq<StockData>
    decreases |outcomes|
  {
    if |outcomes| == 0 then []
    else
      var rest := Successes(outcomes[1..]);
      if outcomes[0].Received? then [outcomes[0].stock] + rest else rest
  }

  /** The message of the last failed fetch of the batch (each failure overwrites the
      error shown), if any. */
  function LastFailure(batch: seq<string>, outcomes: seq<QuoteFetch>): Option<string>
    requires |batch| == |outcomes|
    decreases |batch|
  {
    if |batch| == 0 then None
    else
      var n := |batch| - 1;
      var m := FailureMessage(batch[n], outcomes[n]);
      if m.Some? then m else LastFailure(batch[..n], outcomes[..n])
  }

  /** `Math.max(0, budget - calls)`. */
  function Spend(budget: nat, calls: nat): nat {
    if budget >= calls then budget - calls else 0
  }

  /** `processApiQueue` up to its `await`: unless a drain is under way or nothing is
      pending, take the first (up to) five pending symbols as the batch. */
  function Drain(s: State): (r: State)
    ensures Processing(s) || |s.queue| == 0 ==> r == s
    ensures !Processing(s) && |s.queue| > 0 ==> (
      && r.phase.Fetching?
      && r.phase.batch == s.queue[..Min(BatchSize, |s.queue|)]
      && r.phase.batch + r.queue == s.queue
      && 0 < |r.phase.batch| <= BatchSize
      && r.loading
      && r == s.(queue := r.queue, phase := r.phase, loading := true))
  {
    if Processing(s) || |s.queue| == 0 then s
    else
      var n := Min(BatchSize, |s.queue|);
      assert s.queue[..n] + s.queue[n..] == s.queue;
      s.(queue := s.queue[n..], phase := Fetching(s.queue[..n]), loading := true)
  }

  /** `processApiQueue` after its `await`: merge the successes, spend one call per
      symbol attempted, and either stop or start the 60-second pause. The queue is read
      afresh, so symbols enqueued during the fetch count. */
  function Settle(s: State, outcomes: seq<QuoteFetch>): (r: State)
    requires s.phase.Fetching? && |outcomes| == |s.phase.batch|
    ensures Unique(r.stocks)
    ensures Latest(r.stocks) == Latest(s.stocks) + Latest(Successes(outcomes))
    ensures Unique(s.stocks) ==>
      |r.stocks| >= |s.stocks| && forall i | 0 <= i < |s.stocks| :: r.stocks[i].symbol == s.stocks[i].symbol
    ensures s.callsRemaining - r.callsRemaining == Min(s.callsRemaining, |s.phase.batch|)
    ensures Processing(r) <==> |s.queue| > 0
    ensures !r.phase.Fetching? && r.queue == s.queue && !r.loading && r.searchSymbol == s.searchSymbol
    ensures (forall j | 0 <= j < |outcomes| :: outcomes[j].Received?) ==> r.error == s.error
  {
    MergeSpec(s.stocks, Successes(outcomes));
    NoFailureIsNone(s.phase.batch, outcomes);
    var failure := LastFailure(s.phase.batch, outcomes);
    State(
      Merge(s.stocks, Successes(outcomes)),
      s.queue,
      if |s.queue| > 0 then CoolingDown else Idle,
      Spend(s.callsRemaining, |s.phase.batch|),
      if failure.Some? then failure else s.error,
      false,
      s.searchSymbol)
  }

  /** The pause timer fires: clear the flag and drain again. */
  function CooldownElapsed(s: State): State {
    if s.phase.CoolingDown? then Drain(s.(phase := Idle)) else s
  }

  /** `fetchAllStocks`: clear the error, replace the pending symbols by the defaults,
      and drain. The searched symbol is not re-enqueued. */
  function RefreshAll(s: State): State {
    Drain(s.(error := None, queue := DefaultSymbols))
  }

  /** `handleSearch`: ignore a blank query; otherwise remember the upper-cased query
      as the searched symbol, append it to the pending symbols, and drain. */
  function SubmitSearch(s: State, query: string): State {
    if Trim(query) == "" then s
    else
      var symbol := ToUpper(query);
      Drain(s.(searchSymbol := symbol, queue := s.queue + [symbol]))
  }

  /** The stocks whose symbol contains `needle`, in watch-list order. */
  function FilterBySymbol(stocks: seq<StockData>, needle: string): seq<StockData>
    decreases |stocks|
  {
    if |stocks| == 0 then []
    else
      var rest := FilterBySymbol(stocks[1..], needle);
      if Contains(stocks[0].symbol, needle) then [stocks[0]] + rest else rest
  }

  /** `filteredStocks`: with a searched symbol, only stocks whose symbol contains it. */
  function Visible(s: State): seq<StockData> {
    if s.searchSymbol == "" then s.stocks else FilterBySymbol(s.stocks, s.searchSymbol)
  }

  /** The invariant every reachable state keeps. */
  predicate Valid(s: State) {
    && Unique(s.stocks)
    && s.callsRemaining <= DailyCallBudget
    && (s.phase.Fetching? ==> 0 < |s.phase.batch| <= BatchSize)
    && (s.phase.CoolingDown? ==> |s.queue| > 0)
  }

  /** The successes are exactly the received quotes, in batch order; a failed fetch
      is simply absent, as if it had not been in the batch. */
  lemma {:induction false} SuccessesAreReceivedQuotes(outcomes: seq<QuoteFetch>, stock: StockData)
    ensures stock in Successes(outcomes) <==> exists i | 0 <= i < |outcomes| :: outcomes[i] == Received(stock)
    ensures |Successes(outcomes)| <= |outcomes|
    decreases |outcomes|
  {
    if |outcomes| > 0 {
      SuccessesAreReceivedQuotes(outcomes[1..], stock);
      if exists i | 0 <= i < |outcomes| :: outcomes[i] == Received(stock) {
        var i :| 0 <= i < |outcomes| && outcomes[i] == Received(stock);
        if i > 0 { assert outcomes[1..][i - 1] == outcomes[i]; }
      }
      if exists i | 0 <= i < |outcomes[1..]| :: outcomes[1..][i] == Received(stock) {
        var i :| 0 <= i < |outcomes[1..]| && outcomes[1..][i] == Received(stock);
        assert outcomes[i + 1] == Received(stock);
      }
    }
  }

  lemma {:induction false} SuccessesAppend(a: seq<QuoteFetch>, b: seq<QuoteFetch>)
    ensures Successes(a + b) == Successes(a) + Successes(b)
    decreases |a|
  {
    if |a| > 0 {
      SuccessesAppend(a[1..], b);
      assert (a + b)[1..] == a[1..] + b;
    } else {
      assert a + b == b;
    }
  }

  /** A failed fetch does not affect its siblings: the merged quotes are the same as
      if that symbol had not been fetched at all. */
  lemma FailureIsDropped(outcomes: seq<QuoteFetch>, i: nat, failure: QuoteFetch)
    requires i < |outcomes| && !failure.Received?
    ensures Successes(outcomes[i := failure]) == Successes(outcomes[..i] + outcomes[i + 1..])
  {
    var o := outcomes[i := failure];
    assert o == outcomes[..i] + ([failure] + outcomes[i + 1..]);
    SuccessesAppend(outcomes[..i], [failure] + outcomes[i + 1..]);
    SuccessesAppend(outcomes[..i], outcomes[i + 1..]);
    assert ([failure] + outcomes[i + 1..])[1..] == outcomes[i + 1..];
  }

  /** The budget is charged per symbol attempted, whatever the outcomes, and never
      drops below zero. */
  lemma BudgetCountsAttempts(s: State, outcomes: seq<QuoteFetch>, others: seq<QuoteFetch>)
    requires s.phase.Fetching? && |outcomes| == |s.phase.batch| && |others| == |outcomes|
    ensures Settle(s, outcomes).callsRemaining == Settle(s, others).callsRemaining
    ensures Settle(s, outcomes).callsRemaining == Spend(s.callsRemaining, |s.phase.batch|)
  {
  }

  /** The error shown after a batch is the message of its last failed fetch; a batch
      without failures leaves the previous error in place. */
  lemma {:induction false} LastFailureIsLatest(batch: seq<string>, outcomes: seq<QuoteFetch>, i: nat)
    requires |batch| == |outcomes| && i < |batch|
    requires FailureMessage(batch[i], outcomes[i]).Some?
    requires forall j | i < j < |batch| :: outcomes[j].Received?
    ensures LastFailure(batch, outcomes) == FailureMessage(batch[i], outcomes[i])
    decreases |batch|
  {
    var n := |batch| - 1;
    if i < n {
      LastFailureIsLatest(batch[..n], outcomes[..n], i);
    }
  }

  /** A batch whose fetches all succeeded has no failure to show. */
  lemma {:induction false} NoFailureIsNone(batch: seq<string>, outcomes: seq<QuoteFetch>)
    requires |batch| == |outcomes|
    ensures (forall j | 0 <= j < |outcomes| :: outcomes[j].Received?) ==> LastFailure(batch, outcomes) == None
    decreases |batch|
  {
    if |batch| > 0 && forall j | 0 <= j < |outcomes| :: outcomes[j].Received? {
      var n := |batch| - 1;
      NoFailureIsNone(batch[..n], outcomes[..n]);
    }
  }

  /** The error displayed after a batch settles is the message of its last failed
      fetch, and the previous error when every fetch succeeded. */
  lemma SettleShowsLastFailure(s: State, outcomes: seq<QuoteFetch>, i: nat)
    requires s.phase.Fetching? && |outcomes| == |s.phase.batch|
    ensures (forall j | 0 <= j < |outcomes| :: outcomes[j].Received?) ==> Settle(s, outcomes).error == s.error
    ensures i < |outcomes| && FailureMessage(s.phase.batch[i], outcomes[i]).Some?
            && (forall j | i < j < |outcomes| :: outcomes[j].Received?) ==>
            Settle(s, outcomes).error == FailureMessage(s.phase.batch[i], outcomes[i])
  {
    if i < |outcomes| && FailureMessage(s.phase.batch[i], outcomes[i]).Some?
       && (forall j | i < j < |outcomes| :: outcomes[j].Received?) {
      LastFailureIsLatest(s.phase.batch, outcomes, i);
    }
  }

  /** Single flight: while a batch is in flight or the pause runs, a drain request
      does nothing and neither a search nor a refresh starts another batch. */
  lemma SingleFlight(s: State, query: string)
    requires Processing(s)
    ensures Drain(s) == s
    ensures SubmitSearch(s, query).phase == s.phase
    ensures RefreshAll(s).phase == s.phase
  {
  }

  /** A drain takes the first min(5, n) pending symbols, in order, and leaves the rest
      pending; it does nothing if a drain is under way or nothing is pending. */
  lemma DrainTakesPrefix(s: State)
    ensures Drain(s) == s <==> Processing(s) || |s.queue| == 0
    ensures Drain(s) != s ==>
      (Drain(s).phase == Fetching(s.queue[..Min(BatchSize, |s.queue|)])
       && Drain(s).queue == s.queue[Min(BatchSize, |s.queue|)..])
  {
  }

  /** A full refresh clears the error and discards whatever was pending: the symbols
      then pending (including a batch it starts) are exactly the defaults, without the
      searched symbol. */
  lemma RefreshPendsDefaults(s: State)
    ensures RefreshAll(s).error == None
    ensures RefreshAll(s).stocks == s.stocks
    ensures !Processing(s) ==> RefreshAll(s).phase == Fetching(DefaultSymbols) && RefreshAll(s).queue == []
    ensures Processing(s) ==> RefreshAll(s).queue == DefaultSymbols
  {
  }

  /** A blank query changes nothing; any other query is upper-cased, becomes the
      searched symbol and is appended behind the pending symbols. */
  lemma SearchAppendsQuery(s: State, query: string)
    ensures IsBlank(query) ==> SubmitSearch(s, query) == s
    ensures !IsBlank(query) ==> SubmitSearch(s, query).searchSymbol == ToUpper(query)
    ensures !IsBlank(query) && Processing(s) ==> SubmitSearch(s, query).queue == s.queue + [ToUpper(query)]
    ensures !IsBlank(query) && !Processing(s) ==>
      (SubmitSearch(s, query).phase.Fetching?
       && SubmitSearch(s, query).phase.batch + SubmitSearch(s, query).queue == s.queue + [ToUpper(query)])
  {
    TrimEmptyIffBlank(query);
  }

  lemma {:induction false} FilterBySymbolKeeps(stocks: seq<StockData>, needle: string, stock: StockData)
    ensures stock in FilterBySymbol(stocks, needle) <==> stock in stocks && Contains(stock.symbol, needle)
    ensures |FilterBySymbol(stocks, needle)| <= |stocks|
    decreases |stocks|
  {
    if |stocks| > 0 {
      var rest := FilterBySymbol(stocks[1..], needle);
      FilterBySymbolKeeps(stocks[1..], needle, stock);
      assert stocks == [stocks[0]] + stocks[1..];
      assert stock in stocks <==> stock == stocks[0] || stock in stocks[1..];
      if Contains(stocks[0].symbol, needle) {
        assert FilterBySymbol(stocks, needle) == [stocks[0]] + rest;
        assert stock in [stocks[0]] + rest <==> stock == stocks[0] || stock in rest;
      } else {
        assert FilterBySymbol(stocks, needle) == rest;
      }
    }
  }

  /** The displayed list is the watch-list when nothing was searched, and otherwise the
      stocks whose symbol contains the searched symbol. */
  lemma VisibleMatchesSearch(s: State, stock: StockData)
    ensures s.searchSymbol == "" ==> Visible(s) == s.stocks
    ensures stock in Visible(s) <==>
      stock in s.stocks && (s.searchSymbol == "" || Contains(stock.symbol, s.searchSymbol))
    ensures |Visible(s)| <= |s.stocks|
  {
    FilterBySymbolKeeps(s.stocks, s.searchSymbol, stock);
  }

  /** Every event keeps the invariant, so the watch-list never lists a symbol twice,
      a batch never exceeds five symbols, and a pause always has symbols waiting. */
  lemma EventsPreserveValid(s: State, outcomes: seq<QuoteFetch>, query: string)
    requires Valid(s)
    ensures Valid(Initial)
    ensures Valid(Drain(s))
    ensures s.phase.Fetching? && |outcomes| == |s.phase.batch| ==> Valid(Settle(s, outcomes))
    ensures Valid(CooldownElapsed(s))
    ensures Valid(RefreshAll(s))
    ensures Valid(SubmitSearch(s, query))
  {
  }
}

=== FILE: failures.dfy ===
/** How the route handlers turn a caught exception into a reply: the message is
    searched for fixed markers in priority order and the first match decides. */
module Failures {
  import opened Outcomes
  import opened Text
  import opened Http

  /** What a `catch` clause receives: an `Error` with its message, or any other value. */
  datatype Thrown = ErrorObject(message: string) | NonError

  datatype ErrorClass =
    | BadCredential          // the provider rejected the key
    | RateLimited            // premium-only or call-frequency refusal
    | NoData                 // the quote parser found no quote
    | Generic(message: string)
    | Unrecognized           // something other than an Error was thrown

  const InvalidKeyMarker := "Invalid API key"
  const PremiumMarker := "premium subscription"
  const FrequencyMarker := "call frequency"
  const NoDataMarker := "No data found"

  const BadCredentialText := "API configuration error. Please check your Alpha Vantage API key."
  const RateLimitedText := "API rate limit exceeded. Please try again later."

  /** The `if` chain of a route's `catch` clause. Only the quote route has the
      "No data found" branch, hence `mapsNoData`. */
  function Classify(e: Thrown, mapsNoData: bool): ErrorClass {
    match e
    case NonError => Unrecognized
    case ErrorObject(m) =>
      if Contains(m, InvalidKeyMarker) then BadCredential
      else if Contains(m, PremiumMarker) || Contains(m, FrequencyMarker) then RateLimited
      else if mapsNoData && Contains(m, NoDataMarker) then NoData
      else Generic(m)
  }

  /** The reply for a class; `notFound` and `fallback` are the route's own texts. */
  function ErrorReply<T>(c: ErrorClass, notFound: string, fallback: string): (r: Reply<T>)
    ensures r.body.ErrorBody?
    ensures r.status in {StatusNotFound, StatusTooManyRequests, StatusServerError}
    ensures r.status == StatusNotFound <==> c == NoData
    ensures r.status == StatusTooManyRequests <==> c == RateLimited
    ensures c == BadCredential ==> r.body == ErrorBody(BadCredentialText)
    ensures c == RateLimited ==> r.body == ErrorBody(RateLimitedText)
    ensures c == NoData ==> r.body == ErrorBody(notFound)
    ensures c.Generic? ==> r.body == ErrorBody(c.message)
    ensures c == Unrecognized ==> r.body == ErrorBody(fallback)
  {
    match c
    case BadCredential => Reply(StatusServerError, ErrorBody(BadCredentialText))
    case RateLimited => Reply(StatusTooManyRequests, ErrorBody(RateLimitedText))
    case NoData => Reply(StatusNotFound, ErrorBody(notFound))
    case Generic(m) => Reply(StatusServerError, ErrorBody(m))
    case Unrecognized => Reply(StatusServerError, ErrorBody(fallback))
  }

  /** A declarative statement of the same policy: an ordered table of rules, each a
      set of markers any one of which selects its class. */
  datatype Rule = Rule(markers: seq<string>, verdict: ErrorClass)

  function Rules(mapsNoData: bool): seq<Rule> {
    [Rule([InvalidKeyMarker], BadCredential),
     Rule([PremiumMarker, FrequencyMarker], RateLimited)]
    + (if mapsNoData then [Rule([NoDataMarker], NoData)] else [])
  }

  predicate Fires(rule: Rule, message: string) {
    exists k | 0 <= k < |rule.markers| :: Contains(message, rule.markers[k])
  }

  /** The class of the first rule that fires, if any. */
  function FirstMatch(rules: seq<Rule>, message: string): (r: Option<ErrorClass>)
    ensures r.None? <==> forall i | 0 <= i < |rules| :: !Fires(rules[i], message)
    ensures r.Some? ==> exists i | 0 <= i < |rules| ::
      Fires(rules[i], message) && rules[i].verdict == r.value
      && forall j | 0 <= j < i :: !Fires(rules[j], message)
    decreases |rules|
  {
    if |rules| == 0 then None
    else if Fires(rules[0], message) then Some(rules[0].verdict)
    else
      var rest := FirstMatch(rules[1..], message);
      assert forall i | 1 <= i < |rules| :: rules[i] == rules[1..][i - 1];
      if rest.Some? then
        var i :| 0 <= i < |rules[1..]| && Fires(rules[1..][i], message)
          && rules[1..][i].verdict == rest.value
          && forall j | 0 <= j < i :: !Fires(rules[1..][j], message);
        assert forall j | 1 <= j < i + 1 :: rules[j] == rules[1..][j - 1];
        rest
      else rest
  }

  /** The `if` chain and the rule table agree on every message: the first rule that
      fires wins, and a message no rule recognises keeps its own text. */
  lemma ClassifyFollowsRules(message: string, mapsNoData: bool)
    ensures Classify(ErrorObject(message), mapsNoData) ==
      match FirstMatch(Rules(mapsNoData), message)
      case Some(c) => c
      case None => Generic(message)
  {
    var rules := Rules(mapsNoData);
    var r0 := Rule([InvalidKeyMarker], BadCredential);
    var r1 := Rule([PremiumMarker, FrequencyMarker], RateLimited);
    assert rules[0] == r0 && rules[1] == r1;
    assert Fires(r0, message) <==> Contains(message, InvalidKeyMarker) by {
      assert r0.markers[0] == InvalidKeyMarker;
    }
    assert Fires(r1, message) <==> Contains(message, PremiumMarker) || Contains(message, FrequencyMarker) by {
      assert r1.markers[0] == PremiumMarker && r1.markers[1] == FrequencyMarker;
    }
    if mapsNoData {
      var r2 := Rule([NoDataMarker], NoData);
      assert rules[2] == r2 && |rules| == 3;
      assert Fires(r2, message) <==> Contains(message, NoDataMarker) by {
        assert r2.markers[0] == NoDataMarker;
      }
    } else {
      assert |rules| == 2;
    }
  }

  /** Branch priority: a credential failure is reported as such even when the message
      also mentions rate limits or missing data, and a rate limit wins over missing data. */
  lemma ClassifyPriority(message: string, mapsNoData: bool)
    ensures Contains(message, InvalidKeyMarker) ==> Classify(ErrorObject(message), mapsNoData) == BadCredential
    ensures !Contains(message, InvalidKeyMarker) && Contains(message, FrequencyMarker) ==>
      Classify(ErrorObject(message), mapsNoData) == RateLimited
    ensures !mapsNoData ==> Classify(ErrorObject(message), mapsNoData) != NoData
  {
  }
}

=== FILE: history_route.dfy ===
/** `GET /api/stock/history?symbol=…`: the provider's date-keyed daily series becomes a
    list of bars, newest first, cut to the 30 most recent days. Dates are compared as
    strings, which orders `YYYY-MM-DD` dates chronologically. */
module HistoryRoute {
  import opened Outcomes
  import opened Text
  import opened Json
  import opened TtlCache
  import opened Http
  import opened Failures
  import opened AlphaVantage

  /** One hour, in milliseconds. */
  const HistoryTtl: nat := 60 * 60 * 1000

  /** How many of the most recent days are returned. */
  const MaxBars: nat := 30

  const SeriesField := "Time Series (Daily)"
  const HistoryFallbackText := "Failed to fetch historical stock data"

  /** One day; the prices hold the provider values `parseFloat`/`parseInt` are applied to. */
  datatype Bar = Bar(
    date: string,
    open: Option<Json>,
    high: Option<Json>,
    low: Option<Json>,
    close: Option<Json>,
    volume: Option<Json>)

  datatype History = History(symbol: string, data: seq<Bar>)

  function HistoryKey(symbol: string): string {
    "history_" + symbol
  }

  function NoSeriesText(symbol: string): string {
    "No historical data found for symbol: " + symbol
  }

  /** The bar for one `[date, values]` entry; reading a field of `null` throws. */
  function ToBar(date: string, values: Json): (r: Result<Bar>)
    ensures r.Err? <==> values.JNull?
    ensures r.Err? ==> r.message == TypeErrorMessage
    ensures r.Ok? ==> r.value == Bar(date, Member(values, "1. open"), Member(values, "2. high"),
                                     Member(values, "3. low"), Member(values, "4. close"), Member(values, "5. volume"))
  {
    if values.JNull? then Err(TypeErrorMessage)
    else Ok(Bar(date, Member(values, "1. open"), Member(values, "2. high"),
                Member(values, "3. low"), Member(values, "4. close"), Member(values, "5. volume")))
  }

  /** `Object.entries(series).map(...)`: one bar per entry, in entry order, or the
      first exception. */
  function ToBars(entries: seq<(string, Json)>): (r: Result<seq<Bar>>)
    ensures r.Ok? <==> forall k | 0 <= k < |entries| :: !entries[k].1.JNull?
    ensures r.Ok? ==> |r.value| == |entries|
    ensures r.Ok? ==> forall k | 0 <= k < |entries| :: ToBar(entries[k].0, entries[k].1) == Ok(r.value[k])
    decreases |entries|
  {
    if |entries| == 0 then Ok([])
    else match ToBar(entries[0].0, entries[0].1)
      case Err(m) => Err(m)
      case Ok(bar) =>
        match ToBars(entries[1..])
        case Err(m) => Err(m)
        case Ok(rest) => Ok([bar] + rest)
  }

  /** Every later bar is no newer than every earlier one. */
  predicate NewestFirst(bars: seq<Bar>) {
    forall i, j | 0 <= i < j < |bars| :: LexLe(bars[j].date, bars[i].date)
  }

  /** Insert `bar` after every bar at least as new, so equal dates keep their order
      as a stable sort does. */
  function Insert(sorted: seq<Bar>, bar: Bar): seq<Bar>
    decreases |sorted|
  {
    if |sorted| == 0 then [bar]
    else if LexLe(bar.date, sorted[0].date) then [sorted[0]] + Insert(sorted[1..], bar)
    else [bar] + sorted
  }

  /** `chartData.sort((a, b) => date(b) - date(a))`. */
  function SortNewestFirst(bars: seq<Bar>): seq<Bar>
    decreases |bars|
  {
    if |bars| == 0 then []
    else Insert(SortNewestFirst(bars[..|bars| - 1]), bars[|bars| - 1])
  }

  lemma {:induction false} InsertPermutes(sorted: seq<Bar>, bar: Bar)
    ensures multiset(Insert(sorted, bar)) == multiset(sorted) + multiset{bar}
    decreases |sorted|
  {
    if |sorted| > 0 && LexLe(bar.date, sorted[0].date) {
      InsertPermutes(sorted[1..], bar);
      assert sorted == [sorted[0]] + sorted[1..];
    }
  }

  /** No bar of `bars` is newer than `date`. */
  predicate NoneNewerThan(bars: seq<Bar>, date: string) {
    forall k | 0 <= k < |bars| :: LexLe(bars[k].date, date)
  }

  lemma ConsKeepsOrder(bar: Bar, bars: seq<Bar>)
    requires NewestFirst(bars) && NoneNewerThan(bars, bar.date)
    ensures NewestFirst([bar] + bars)
  {
    var r := [bar] + bars;
    forall i, j | 0 <= i < j < |r| ensures LexLe(r[j].date, r[i].date) {
      assert r[j] == bars[j - 1];
      if i > 0 { assert r[i] == bars[i - 1]; }
    }
  }

  lemma {:induction false} InsertBounded(sorted: seq<Bar>, bar: Bar, date: string)
    requires NoneNewerThan(sorted, date) && LexLe(bar.date, date)
    ensures NoneNewerThan(Insert(sorted, bar), date)
    decreases |sorted|
  {
    if |sorted| > 0 && LexLe(bar.date, sorted[0].date) {
      InsertBounded(sorted[1..], bar, date);
      var r := Insert(sorted, bar);
      forall k | 0 <= k < |r| ensures LexLe(r[k].date, date) {
        if k > 0 { assert r[k] == Insert(sorted[1..], bar)[k - 1]; }
      }
    }
  }

  lemma {:induction false} InsertKeepsOrder(sorted: seq<Bar>, bar: Bar)
    requires NewestFirst(sorted)
    ensures NewestFirst(Insert(sorted, bar))
    decreases |sorted|
  {
    if |sorted| == 0 {
    } else if LexLe(bar.date, sorted[0].date) {
      var tail := sorted[1..];
      assert NewestFirst(tail) by {
        forall i, j | 0 <= i < j < |tail| ensures LexLe(tail[j].date, tail[i].date) {
          assert tail[i] == sorted[i + 1] && tail[j] == sorted[j + 1];
        }
      }
      assert NoneNewerThan(tail, sorted[0].date) by {
        forall k | 0 <= k < |tail| ensures LexLe(tail[k].date, sorted[0].date) {
          assert tail[k] == sorted[k + 1];
        }
      }
      InsertKeepsOrder(tail, bar);
      InsertBounded(tail, bar, sorted[0].date);
      ConsKeepsOrder(sorted[0], Insert(tail, bar));
    } else {
      LexLeTotal(bar.date, sorted[0].date);
      assert NoneNewerThan(sorted, bar.date) by {
        forall k | 0 <= k < |sorted| ensures LexLe(sorted[k].date, bar.date) {
          if k > 0 {
            LexLeTransitive(sorted[k].date, sorted[0].date, bar.date);
          }
        }
      }
      ConsKeepsOrder(bar, sorted);
    }
  }

  /** The sort is a permutation whose result is newest first. */
  lemma {:induction false} SortIsOrderedPermutation(bars: seq<Bar>)
    ensures multiset(SortNewestFirst(bars)) == multiset(bars)
    ensures NewestFirst(SortNewestFirst(bars))
    decreases |bars|
  {
    if |bars| > 0 {
      var init := bars[..|bars| - 1];
      SortIsOrderedPermutation(init);
      InsertPermutes(SortNewestFirst(init), bars[|bars| - 1]);
      InsertKeepsOrder(SortNewestFirst(init), bars[|bars| - 1]);
      assert bars == init + [bars[|bars| - 1]];
    }
  }

  /** `{ symbol, data: chartData.slice(0, 30) }` for the entries of a present series. */
  function Reshape(symbol: string, entries: seq<(string, Json)>): Result<History> {
    match ToBars(entries)
    case Err(m) => Err(m)
    case Ok(bars) =>
      var sorted := SortNewestFirst(bars);
      Ok(History(symbol, sorted[..Min(MaxBars, |sorted|)]))
  }

  /** No two bars share a date. */
  predicate DistinctDays(bars: seq<Bar>) {
    forall i, j | 0 <= i < j < |bars| :: bars[i].date != bars[j].date
  }

  /** Cutting a newest-first permutation of `bars` to its first `n` elements keeps an
      ordered sub-multiset, and nothing left out is newer than anything kept. */
  lemma TakeNewest(bars: seq<Bar>, sorted: seq<Bar>, n: nat)
    requires multiset(sorted) == multiset(bars) && NewestFirst(sorted)
    requires n <= |sorted|
    ensures NewestFirst(sorted[..n])
    ensures multiset(sorted[..n]) <= multiset(bars)
    ensures forall b | b in multiset(bars) - multiset(sorted[..n]) ::
      forall o | o in sorted[..n] :: LexLe(b.date, o.date)
  {
    var kept := sorted[..n];
    assert sorted == kept + sorted[n..];
    assert multiset(sorted) == multiset(kept) + multiset(sorted[n..]);
    forall b | b in multiset(bars) - multiset(kept)
      ensures forall o | o in kept :: LexLe(b.date, o.date)
    {
      assert b in multiset(sorted[n..]);
      CutIsNoNewer(sorted, n, b);
    }
  }

  /** In a newest-first sequence, a bar after the cut is no newer than any bar before it. */
  lemma CutIsNoNewer(sorted: seq<Bar>, n: nat, b: Bar)
    requires NewestFirst(sorted) && n <= |sorted|
    requires b in multiset(sorted[n..])
    ensures forall o | o in sorted[..n] :: LexLe(b.date, o.date)
  {
    var j :| 0 <= j < |sorted[n..]| && sorted[n..][j] == b;
    assert sorted[n + j] == b;
    forall o | o in sorted[..n] ensures LexLe(b.date, o.date) {
      var i :| 0 <= i < n && sorted[..n][i] == o;
      assert sorted[i] == o;
    }
  }

  /** `bar` is the conversion of one of the entries. */
  predicate BuiltFromEntry(entries: seq<(string, Json)>, bar: Bar) {
    exists k | 0 <= k < |entries| :: ToBar(entries[k].0, entries[k].1) == Ok(bar)
  }

  /** Every bar of a sub-multiset of the converted bars was built from some entry. */
  lemma KeptBarsComeFromEntries(entries: seq<(string, Json)>, bars: seq<Bar>, kept: seq<Bar>)
    requires |bars| == |entries|
    requires forall k | 0 <= k < |entries| :: ToBar(entries[k].0, entries[k].1) == Ok(bars[k])
    requires multiset(kept) <= multiset(bars)
    ensures forall i | 0 <= i < |kept| ::
      BuiltFromEntry(entries, kept[i])
  {
    forall i | 0 <= i < |kept|
      ensures BuiltFromEntry(entries, kept[i])
    {
      assert kept[i] in multiset(bars);
      var k :| 0 <= k < |bars| && bars[k] == kept[i];
      assert ToBar(entries[k].0, entries[k].1) == Ok(kept[i]);
    }
  }

  /** The reshaped series keeps the requested symbol, holds min(N, 30) bars newest
      first, each one built from a date entry of the series, and every entry left out is
      no newer than any bar kept. No date appears twice, because `Object.entries` lists
      each key of the parsed series once. */
  lemma ReshapeKeepsMostRecent(symbol: string, series: Json, h: History, bars: seq<Bar>)
    requires Reshape(symbol, OwnEntries(series)) == Ok(h)
    requires ToBars(OwnEntries(series)) == Ok(bars)
    ensures h.symbol == symbol
    ensures |h.data| == Min(MaxBars, |OwnEntries(series)|)
    ensures NewestFirst(h.data)
    ensures multiset(h.data) <= multiset(bars)
    ensures forall i | 0 <= i < |h.data| :: BuiltFromEntry(OwnEntries(series), h.data[i])
    ensures forall b | b in multiset(bars) - multiset(h.data) :: forall o | o in h.data :: LexLe(b.date, o.date)
    ensures DistinctDays(h.data)
  {
    var entries := OwnEntries(series);
    var sorted := SortNewestFirst(bars);
    SortIsOrderedPermutation(bars);
    assert |sorted| == |bars| by {
      assert |multiset(sorted)| == |multiset(bars)|;
    }
    var n := Min(MaxBars, |sorted|);
    assert h == History(symbol, sorted[..n]);
    TakeNewest(bars, sorted, n);
    KeptBarsComeFromEntries(entries, bars, h.data);
    OwnEntriesDistinctKeys(series);
    DistinctDatesKept(entries, bars, h.data);
  }

  /** A sub-multiset of bars built from distinctly dated entries has distinct dates. */
  lemma DistinctDatesKept(entries: seq<(string, Json)>, bars: seq<Bar>, kept: seq<Bar>)
    requires DistinctKeys(entries) && |bars| == |entries|
    requires forall k | 0 <= k < |bars| :: bars[k].date == entries[k].0
    requires multiset(kept) <= multiset(bars)
    ensures DistinctDays(kept)
  {
    forall i, j | 0 <= i < j < |kept| ensures kept[i].date != kept[j].date {
      assert kept[i] in multiset(bars) && kept[j] in multiset(bars);
      var a :| 0 <= a < |bars| && bars[a] == kept[i];
      var b :| 0 <= b < |bars| && bars[b] == kept[j];
      if a != b {
        assert entries[a].0 != entries[b].0;
      } else {
        OnlyOnce(bars, entries, a);
        TwiceCounted(kept, i, j);
      }
    }
  }

  lemma TwiceCounted(s: seq<Bar>, i: nat, j: nat)
    requires i < j < |s| && s[i] == s[j]
    ensures multiset(s)[s[i]] >= 2
  {
    assert s == s[..j] + [s[j]] + s[j + 1..];
    assert s[..j][i] == s[i];
    assert s[i] in multiset(s[..j]);
  }

  /** A bar built from distinctly dated entries occurs exactly once among the bars. */
  lemma {:induction false} OnlyOnce(bars: seq<Bar>, entries: seq<(string, Json)>, a: nat)
    requires |bars| == |entries| && DistinctKeys(entries)
    requires forall k | 0 <= k < |bars| :: bars[k].date == entries[k].0
    requires a < |bars|
    ensures multiset(bars)[bars[a]] == 1
    decreases |bars|
  {
    var last := |bars| - 1;
    assert bars == bars[..last] + [bars[last]];
    if a == last {
      assert bars[a] !in bars[..last] by {
        forall k | 0 <= k < last ensures bars[..last][k] != bars[a] {
          assert bars[k].date == entries[k].0 != entries[a].0;
        }
      }
    } else {
      OnlyOnce(bars[..last], entries[..last], a);
      assert bars[last] != bars[a] by {
        assert entries[a].0 != entries[last].0;
      }
    }
  }

  /** The `catch` clause of this route: it has no "No data found" branch, so the
      not-found text is never used. */
  function CatchReply(message: string): (r: Reply<History>)
    ensures r.status in {StatusTooManyRequests, StatusServerError}
  {
    ErrorReply(Classify(ErrorObject(message), false), "", HistoryFallbackText)
  }

  /** Every entry is stored under the key of the symbol its history names. */
  predicate KeysMatchSymbols(cache: Cache<History>) {
    forall k | k in cache :: k == HistoryKey(cache[k].data.symbol)
  }

  /** The handler; `upstream` is what the provider call would return if made. */
  function Get(param: Option<string>, apiKey: Option<string>, cache: Cache<History>, now: int,
               upstream: Upstream): (h: Handled<History>)
    ensures ParamMissing(param) ==> h == Handled(Reply(StatusBadRequest, ErrorBody(SymbolRequiredText)), cache)
    ensures !ParamMissing(param) && !KeyConfigured(apiKey) ==>
      h == Handled(Reply(StatusServerError, ErrorBody(KeyNotConfiguredText)), cache)
    ensures h.reply.status != StatusOk ==> h.cache == cache
    ensures h.reply.status == StatusOk ==> (
      && h.reply.body.Data?
      && var key := HistoryKey(ToUpper(param.value));
      && key in h.cache && h.cache[key].data == h.reply.body.value
      && h.cache.Keys == cache.Keys + {key}
      && forall k | k in cache && k != key :: h.cache[k] == cache[k])
    ensures h.reply.status == StatusNotFound ==> h.reply.body == ErrorBody(NoSeriesText(ToUpper(param.value)))
    ensures h.reply.status in {StatusOk, StatusBadRequest, StatusNotFound, StatusTooManyRequests, StatusServerError}
  {
    var symbol := Symbol(param);
    if symbol.None? || symbol.value == "" then
      Handled(Reply(StatusBadRequest, ErrorBody(SymbolRequiredText)), cache)
    else if !KeyConfigured(apiKey) then
      Handled(Reply(StatusServerError, ErrorBody(KeyNotConfiguredText)), cache)
    else
      var key := HistoryKey(symbol.value);
      match TtlCache.Get(cache, key, now, HistoryTtl)
      case Some(stored) => Handled(Reply(StatusOk, Data(stored)), cache)
      case None =>
        match Fetch(TimeSeriesRequest(symbol.value, None), apiKey, upstream)
        case Err(m) => Handled(CatchReply(m), cache)
        case Ok(data) =>
          if Truthy(Member(data, ErrorMessageField)) then
            // the adapter has already thrown on this marker
            Handled(Reply(StatusNotFound, ErrorBody(StringOf(Member(data, ErrorMessageField)))), cache)
          else
            var series := Member(data, SeriesField);
            if !Truthy(series) then
              Handled(Reply(StatusNotFound, ErrorBody(NoSeriesText(symbol.value))), cache)
            else
              match Reshape(symbol.value, OwnEntries(series.value))
              case Ok(result) => Handled(Reply(StatusOk, Data(result)), Put(cache, key, result, now))
              case Err(m) => Handled(CatchReply(m), cache)
  }

  /** A payload without a daily series is a 404 and is not cached. */
  lemma MissingSeriesIsNotFound(param: Option<string>, apiKey: Option<string>, cache: Cache<History>,
                                now: int, status: nat, data: Json)
    requires !ParamMissing(param)
    requires TtlCache.Get(cache, HistoryKey(ToUpper(param.value)), now, HistoryTtl).None?
    requires Fetch(TimeSeriesRequest(ToUpper(param.value), None), apiKey, Responded(status, Parsed(data))) == Ok(data)
    requires !Truthy(Member(data, SeriesField))
    ensures Get(param, apiKey, cache, now, Responded(status, Parsed(data))) ==
      Handled(Reply(StatusNotFound, ErrorBody(NoSeriesText(ToUpper(param.value)))), cache)
  {
  }

  /** A fresh entry is served verbatim, whatever the provider would have answered. */
  lemma CacheHitServesStoredHistory(param: Option<string>, apiKey: Option<string>, cache: Cache<History>,
                                    now: int, upstream: Upstream)
    requires !ParamMissing(param) && KeyConfigured(apiKey)
    requires var key := HistoryKey(ToUpper(param.value));
      key in cache && now - cache[key].timestamp < HistoryTtl
    ensures Get(param, apiKey, cache, now, upstream) ==
      Handled(Reply(StatusOk, Data(cache[HistoryKey(ToUpper(param.value))].data)), cache)
  {
  }

  /** On a miss the fetched series is reshaped, served and stored under the key with
      the time of the request: the reply holds the min(N, 30) newest bars of the
      series, newest first, each built from one of its entries, with no date twice. */
  lemma MissServesReshapedHistory(param: Option<string>, apiKey: Option<string>, cache: Cache<History>,
                                  now: int, status: nat, data: Json, h: History)
    requires !ParamMissing(param) && KeyConfigured(apiKey)
    requires TtlCache.Get(cache, HistoryKey(ToUpper(param.value)), now, HistoryTtl).None?
    requires Fetch(TimeSeriesRequest(ToUpper(param.value), None), apiKey, Responded(status, Parsed(data))) == Ok(data)
    requires Truthy(Member(data, SeriesField))
    requires Reshape(ToUpper(param.value), OwnEntries(Member(data, SeriesField).value)) == Ok(h)
    ensures Get(param, apiKey, cache, now, Responded(status, Parsed(data))) ==
      Handled(Reply(StatusOk, Data(h)), cache[HistoryKey(ToUpper(param.value)) := Entry(h, now)])
    ensures var entries := OwnEntries(Member(data, SeriesField).value);
      && h.symbol == ToUpper(param.value)
      && |h.data| == Min(MaxBars, |entries|)
      && NewestFirst(h.data)
      && DistinctDays(h.data)
      && forall i | 0 <= i < |h.data| :: BuiltFromEntry(entries, h.data[i])
  {
    var series := Member(data, SeriesField).value;
    var bars := ToBars(OwnEntries(series)).value;
    ReshapeKeepsMostRecent(ToUpper(param.value), series, h, bars);
  }

  /** Served histories name the requested (upper-cased) symbol: the handler keeps
      every entry under the key of its own symbol, so cache hits agree too. */
  lemma {:induction false} ServedHistoryNamesSymbol(param: Option<string>, apiKey: Option<string>,
                                                    cache: Cache<History>, now: int, upstream: Upstream)
    requires KeysMatchSymbols(cache)
    ensures var h := Get(param, apiKey, cache, now, upstream);
      && KeysMatchSymbols(h.cache)
      && (h.reply.status == StatusOk ==> h.reply.body.value.symbol == ToUpper(param.value))
  {
    var h := Get(param, apiKey, cache, now, upstream);
    if h.reply.status == StatusOk {
      var symbol := ToUpper(param.value);
      var key := HistoryKey(symbol);
      HistoryKeyInjective(h.reply.body.value.symbol, symbol);
      if TtlCache.Get(cache, key, now, HistoryTtl).None? {
        var data := Fetch(TimeSeriesRequest(symbol, None), apiKey, upstream).value;
        var series := Member(data, SeriesField).value;
        assert Reshape(symbol, OwnEntries(series)).value.symbol == symbol;
      }
    }
  }

  /** A history as the route builds it: at most 30 bars, newest first, one per date. */
  predicate WellFormed(h: History) {
    |h.data| <= MaxBars && NewestFirst(h.data) && DistinctDays(h.data)
  }

  predicate CacheWellFormed(cache: Cache<History>) {
    forall k | k in cache :: WellFormed(cache[k].data)
  }

  /** Every history the route serves, fetched or cached, has at most 30 bars, newest
      first, with no date repeated; the handler keeps its cache that way. */
  lemma ServedHistoryIsWellFormed(param: Option<string>, apiKey: Option<string>,
                                  cache: Cache<History>, now: int, upstream: Upstream)
    requires CacheWellFormed(cache)
    ensures var h := Get(param, apiKey, cache, now, upstream);
      && CacheWellFormed(h.cache)
      && (h.reply.status == StatusOk ==> WellFormed(h.reply.body.value))
  {
    if !ParamMissing(param) && KeyConfigured(apiKey) {
      var symbol := ToUpper(param.value);
      if TtlCache.Get(cache, HistoryKey(symbol), now, HistoryTtl).None? {
        var f := Fetch(TimeSeriesRequest(symbol, None), apiKey, upstream);
        if f.Ok? && Truthy(Member(f.value, SeriesField)) {
          var series := Member(f.value, SeriesField).value;
          var r := Reshape(symbol, OwnEntries(series));
          if r.Ok? {
            ReshapeKeepsMostRecent(symbol, series, r.value, ToBars(OwnEntries(series)).value);
          }
        }
      }
    }
  }

  lemma HistoryKeyInjective(a: string, b: string)
    ensures HistoryKey(a) == HistoryKey(b) ==> a == b
  {
    if HistoryKey(a) == HistoryKey(b) {
      assert a == HistoryKey(a)[8..];
    }
  }

  /** On a miss, a fetch that throws, or a series whose reshaping throws, answers the
      classified error for its message (this route has no not-found class), and the
      cache is left as it was. */
  lemma FailureIsClassified(param: Option<string>, apiKey: Option<string>, cache: Cache<History>,
                            now: int, upstream: Upstream)
    requires !ParamMissing(param) && KeyConfigured(apiKey)
    requires TtlCache.Get(cache, HistoryKey(ToUpper(param.value)), now, HistoryTtl).None?
    ensures var fetched := Fetch(TimeSeriesRequest(ToUpper(param.value), None), apiKey, upstream);
      fetched.Err? ==> (Get(param, apiKey, cache, now, upstream) ==
        Handled(ErrorReply(Classify(ErrorObject(fetched.message), false), "", HistoryFallbackText), cache))
    ensures var symbol := ToUpper(param.value);
      var fetched := Fetch(TimeSeriesRequest(symbol, None), apiKey, upstream);
      var series := if fetched.Ok? then Member(fetched.value, SeriesField) else None;
      fetched.Ok? && !Truthy(Member(fetched.value, ErrorMessageField)) && Truthy(series)
        && Reshape(symbol, OwnEntries(series.value)).Err? ==>
        (Get(param, apiKey, cache, now, upstream) ==
         Handled(ErrorReply(Classify(ErrorObject(Reshape(symbol, OwnEntries(series.value)).message), false),
                            "", HistoryFallbackText), cache))
  {
  }

  /** The provider's call-frequency or premium notice, sent as "Information", reaches the
      client as a 429 with the rate-limit text, and nothing is cached. */
  lemma RateLimitNoticeIsTooManyRequests(param: Option<string>, apiKey: Option<string>, cache: Cache<History>,
                                         now: int, status: nat, data: Json, text: string)
    requires !ParamMissing(param) && KeyConfigured(apiKey) && IsOk(status)
    requires TtlCache.Get(cache, HistoryKey(ToUpper(param.value)), now, HistoryTtl).None?
    requires !Truthy(Member(data, ErrorMessageField)) && Member(data, InformationField) == Some(JStr(text))
    requires Contains(text, FrequencyMarker) || Contains(text, PremiumMarker)
    requires !Contains(text, InvalidKeyMarker)
    ensures Get(param, apiKey, cache, now, Responded(status, Parsed(data))) ==
      Handled(Reply(StatusTooManyRequests, ErrorBody(RateLimitedText)), cache)
  {
    assert text != "";
    InformationIsThrown(TimeSeriesRequest(ToUpper(param.value), None), apiKey, status, data, JStr(text));
    FailureIsClassified(param, apiKey, cache, now, Responded(status, Parsed(data)));
  }
}

=== FILE: http.dfy ===
/** The JSON replies the route handlers send and the cache state they leave behind. */
module Http {
  import opened Outcomes
  import Text
  import TtlCache

  const StatusOk: nat := 200
  const StatusBadRequest: nat := 400
  const StatusNotFound: nat := 404
  const StatusTooManyRequests: nat := 429
  const StatusServerError: nat := 500

  /** A reply body: the route's payload, or `{ error: message }`. */
  datatype Body<T> = Data(value: T) | ErrorBody(error: string)

  datatype Reply<T> = Reply(status: nat, body: Body<T>)

  /** The reply of one request together with the route's cache after it. */
  datatype Handled<T> = Handled(reply: Reply<T>, cache: TtlCache.Cache<T>)

  /** `response.ok`: a status in the 2xx range. */
  predicate IsOk(status: nat) {
    200 <= status <= 299
  }

  const SymbolRequiredText := "Stock symbol is required"
  const KeyNotConfiguredText := "API configuration error. API key is not configured."

  /** `searchParams.get("symbol")?.toUpperCase()`. */
  function Symbol(param: Option<string>): Option<string> {
    if param.Some? then Some(Text.ToUpper(param.value)) else None
  }

  /** The parameter is absent or empty (the `!symbol` / `!query` test). */
  predicate ParamMissing(param: Option<string>) {
    param.None? || param.value == ""
  }
}

=== FILE: json.dfy ===
/** The JavaScript values that `response.json()` can produce, and the few language
    operations on them that the adapter and the routes perform. Numbers are kept as
    integers: floating point is not modelled. An object is the list of its fields as
    the JSON text spells them, duplicates included; `Properties` turns that list into
    the object `JSON.parse` builds. */
module Json {
  import opened Outcomes
  import Text

  datatype Json =
    | JNull
    | JBool(b: bool)
    | JNum(n: int)
    | JStr(s: string)
    | JArr(items: seq<Json>)
    | JObj(fields: seq<(string, Json)>)

  /** Message of the `TypeError` the engine throws when a property of `null` or
      `undefined` is read or a missing method is called. The exact wording is the
      engine's; the routes only forward it. */
  const TypeErrorMessage := "Cannot read properties of a non-object value"

  /** JavaScript truthiness; `None` stands for `undefined`. */
  predicate Truthy(v: Option<Json>) {
    match v
    case None => false
    case Some(JNull) => false
    case Some(JBool(b)) => b
    case Some(JNum(n)) => n != 0
    case Some(JStr(s)) => s != ""
    case Some(JArr(_)) => true
    case Some(JObj(_)) => true
  }

  /** The value of field `key` in a property list; JSON.parse keeps the last duplicate. */
  function FieldValue(fields: seq<(string, Json)>, key: string): Option<Json>
    decreases |fields|
  {
    if |fields| == 0 then None
    else if fields[|fields| - 1].0 == key then Some(fields[|fields| - 1].1)
    else FieldValue(fields[..|fields| - 1], key)
  }

  /** `j[key]` for a non-null `j` and one of the fixed, non-index field names the
      system reads (such as "Global Quote" or "05. price"): only objects carry them. */
  function Member(j: Json, key: string): Option<Json> {
    if j.JObj? then FieldValue(j.fields, key) else None
  }

  /** The keys of a property list. */
  function KeySet(props: seq<(string, Json)>): set<string> {
    set i | 0 <= i < |props| :: props[i].0
  }

  /** No key is listed twice. */
  predicate DistinctKeys(props: seq<(string, Json)>) {
    forall i, j | 0 <= i < j < |props| :: props[i].0 != props[j].0
  }

  /** Define property `key` as `JSON.parse` does while reading an object: a key already
      present keeps its position and takes the new value; a new key goes last. */
  function SetProperty(props: seq<(string, Json)>, key: string, v: Json): seq<(string, Json)>
    decreases |props|
  {
    if key !in KeySet(props) then props + [(key, v)]
    else
      var n := |props| - 1;
      if props[n].0 == key then props[..n] + [(key, v)]
      else SetProperty(props[..n], key, v) + [props[n]]
  }

  /** The properties of the object a field list parses to: each key once, at the
      position of its first occurrence, with the value of its last. */
  function Properties(fields: seq<(string, Json)>): seq<(string, Json)>
    decreases |fields|
  {
    if |fields| == 0 then []
    else
      var n := |fields| - 1;
      SetProperty(Properties(fields[..n]), fields[n].0, fields[n].1)
  }

  lemma KeySetSnoc(props: seq<(string, Json)>, last: (string, Json))
    ensures KeySet(props + [last]) == KeySet(props) + {last.0}
  {
    var r := props + [last];
    forall x | x in KeySet(r) ensures x in KeySet(props) + {last.0} {
      var i :| 0 <= i < |r| && r[i].0 == x;
      if i < |props| { assert r[i] == props[i]; }
    }
    forall x | x in KeySet(props) ensures x in KeySet(r) {
      var i :| 0 <= i < |props| && props[i].0 == x;
      assert r[i] == props[i];
    }
    assert r[|props|] == last;
  }

  /** A list with distinct keys: its last key is not among the earlier ones, which
      themselves are distinct. */
  lemma DistinctInit(props: seq<(string, Json)>)
    requires DistinctKeys(props) && |props| > 0
    ensures DistinctKeys(props[..|props| - 1])
    ensures props[|props| - 1].0 !in KeySet(props[..|props| - 1])
  {
    var init := props[..|props| - 1];
    forall i, j | 0 <= i < j < |init| ensures init[i].0 != init[j].0 {
      assert init[i] == props[i] && init[j] == props[j];
    }
    forall i | 0 <= i < |init| ensures init[i].0 != props[|props| - 1].0 {
      assert init[i] == props[i];
    }
  }

  lemma DistinctSnoc(props: seq<(string, Json)>, last: (string, Json))
    requires DistinctKeys(props) && last.0 !in KeySet(props)
    ensures DistinctKeys(props + [last])
  {
    var r := props + [last];
    forall i, j | 0 <= i < j < |r| ensures r[i].0 != r[j].0 {
      if j == |props| {
        assert r[i].0 == props[i].0 && props[i].0 in KeySet(props);
      } else {
        assert r[i] == props[i] && r[j] == props[j];
      }
    }
  }

  /** Defining a property adds its key, keeps every existing key where it was, and
      keeps the keys distinct. */
  lemma {:induction false} SetPropertyKeys(props: seq<(string, Json)>, key: string, v: Json)
    requires DistinctKeys(props)
    ensures KeySet(SetProperty(props, key, v)) == KeySet(props) + {key}
    ensures DistinctKeys(SetProperty(props, key, v))
    ensures |SetProperty(props, key, v)| == if key in KeySet(props) then |props| else |props| + 1
    ensures forall i | 0 <= i < |props| :: SetProperty(props, key, v)[i].0 == props[i].0
    decreases |props|
  {
    var r := SetProperty(props, key, v);
    if key !in KeySet(props) {
      KeySetSnoc(props, (key, v));
      DistinctSnoc(props, (key, v));
    } else {
      var n := |props| - 1;
      var init := props[..n];
      assert props == init + [props[n]];
      KeySetSnoc(init, props[n]);
      DistinctInit(props);
      if props[n].0 == key {
        KeySetSnoc(init, (key, v));
        DistinctSnoc(init, (key, v));
      } else {
        var front := SetProperty(init, key, v);
        assert key in KeySet(init);
        SetPropertyKeys(init, key, v);
        KeySetSnoc(front, props[n]);
        DistinctSnoc(front, props[n]);
        forall i | 0 <= i < |props| ensures r[i].0 == props[i].0 {
          if i < n { assert r[i] == front[i]; }
        }
      }
    }
  }

  /** Reading any key after defining `key` gives the new value for `key` and the old
      reading for every other key. */
  lemma {:induction false} SetPropertyRead(props: seq<(string, Json)>, key: string, v: Json, k: string)
    ensures FieldValue(SetProperty(props, key, v), k) == if k == key then Some(v) else FieldValue(props, k)
    decreases |props|
  {
    var r := SetProperty(props, key, v);
    if key !in KeySet(props) {
      assert r[..|r| - 1] == props;
    } else {
      var n := |props| - 1;
      if props[n].0 == key {
        assert r[..|r| - 1] == props[..n];
      } else {
        SetPropertyRead(props[..n], key, v, k);
        assert r[..|r| - 1] == SetProperty(props[..n], key, v);
      }
    }
  }

  lemma {:induction false} PropertiesKeys(fields: seq<(string, Json)>)
    ensures DistinctKeys(Properties(fields))
    ensures KeySet(Properties(fields)) == KeySet(fields)
    decreases |fields|
  {
    if |fields| > 0 {
      var n := |fields| - 1;
      PropertiesKeys(fields[..n]);
      SetPropertyKeys(Properties(fields[..n]), fields[n].0, fields[n].1);
      assert fields == fields[..n] + [fields[n]];
      KeySetSnoc(fields[..n], fields[n]);
    }
  }

  lemma {:induction false} PropertiesRead(fields: seq<(string, Json)>, k: string)
    ensures FieldValue(Properties(fields), k) == FieldValue(fields, k)
    decreases |fields|
  {
    if |fields| > 0 {
      var n := |fields| - 1;
      PropertiesRead(fields[..n], k);
      SetPropertyRead(Properties(fields[..n]), fields[n].0, fields[n].1, k);
    }
  }

  /** The parsed object lists every key of the text exactly once, and reading it agrees
      with reading the text (the last duplicate wins). */
  lemma PropertiesSpec(fields: seq<(string, Json)>, k: string)
    ensures DistinctKeys(Properties(fields))
    ensures KeySet(Properties(fields)) == KeySet(fields)
    ensures FieldValue(Properties(fields), k) == FieldValue(fields, k)
  {
    PropertiesKeys(fields);
    PropertiesRead(fields, k);
  }

  /** `Object.entries(j)` for a truthy value: the own enumerable string-keyed
      properties. Arrays and strings expose their indices; numbers and booleans none. */
  function OwnEntries(j: Json): seq<(string, Json)> {
    match j
    case JObj(fields) => Properties(fields)
    case JArr(items) => seq(|items|, i requires 0 <= i < |items| => (Text.NatToString(i), items[i]))
    case JStr(s) => seq(|s|, i requires 0 <= i < |s| => (Text.NatToString(i), JStr([s[i]])))
    case _ => []
  }

  function Join(parts: seq<string>): string
    decreases |parts|
  {
    if |parts| == 0 then ""
    else if |parts| == 1 then parts[0]
    else parts[0] + "," + Join(parts[1..])
  }

  /** `String(j)`, the message of `new Error(j)`. */
  function ToJsString(j: Json): string
    decreases j
  {
    match j
    case JNull => "null"
    case JBool(b) => if b then "true" else "false"
    case JNum(n) => Text.IntToString(n)
    case JStr(s) => s
    case JArr(items) =>
      Join(seq(|items|, i requires 0 <= i < |items| =>
        if items[i].JNull? then "" else ToJsString(items[i])))
    case JObj(_) => "[object Object]"
  }

  /** `String(v)` where `v` may be `undefined`. */
  function StringOf(v: Option<Json>): string {
    if v.Some? then ToJsString(v.value) else "undefined"
  }

  /** `Object.entries` never lists a key twice. */
  lemma OwnEntriesDistinctKeys(j: Json)
    ensures DistinctKeys(OwnEntries(j))
  {
    match j
    case JObj(fields) => PropertiesSpec(fields, "");
    case JArr(items) =>
      forall i, k | 0 <= i < k < |items| ensures OwnEntries(j)[i].0 != OwnEntries(j)[k].0 {
        Text.NatToStringInjective(i, k);
      }
    case JStr(s) =>
      forall i, k | 0 <= i < k < |s| ensures OwnEntries(j)[i].0 != OwnEntries(j)[k].0 {
        Text.NatToStringInjective(i, k);
      }
    case _ =>
  }
}

=== FILE: outcomes.dfy ===
/** Optional values and the outcome of code that may throw a JavaScript `Error`. */
module Outcomes {

  /** A value that may be absent (`undefined` / `null` in the source). */
  datatype Option<+T> = None | Some(value: T)

  /** Either a value or the message of the `Error` that was thrown instead. */
  datatype Result<+T> = Ok(value: T) | Err(message: string)

  /** The smaller of two counts. */
  function Min(a: nat, b: nat): nat {
    if a < b then a else b
  }
}

=== FILE: queue_run.dfy ===
/** The request queue run to completion: starting a drain on an idle dashboard and
    letting every batch settle and every pause elapse, with each symbol's fetch
    outcome fixed by `respond`. This gives the source's promise about a long queue:
    it is fetched five symbols at a time, in order, with a pause between batches. */
module QueueRun {
  import opened Outcomes
  import opened Watchlist
  import opened Dashboard

  /** The queue cut into consecutive batches of five, the last one possibly shorter. */
  function Chunks(queue: seq<string>): (cs: seq<seq<string>>)
    ensures |queue| == 0 <==> |cs| == 0
    decreases |queue|
  {
    if |queue| == 0 then []
    else
      var n := Min(BatchSize, |queue|);
      [queue[..n]] + Chunks(queue[n..])
  }

  function Flatten(cs: seq<seq<string>>): seq<string>
    decreases |cs|
  {
    if |cs| == 0 then [] else cs[0] + Flatten(cs[1..])
  }

  function Sizes(cs: seq<seq<string>>): seq<nat> {
    seq(|cs|, i requires 0 <= i < |cs| => |cs[i]|)
  }

  /** The batches are the queue in order, every one but the last holds exactly five
      symbols, and there are ceil(n / 5) of them. */
  lemma {:induction false} ChunksPartitionQueue(queue: seq<string>)
    ensures Flatten(Chunks(queue)) == queue
    ensures |Chunks(queue)| == (|queue| + BatchSize - 1) / BatchSize
    ensures forall i | 0 <= i < |Chunks(queue)| :: 0 < |Chunks(queue)[i]| <= BatchSize
    ensures forall i | 0 <= i < |Chunks(queue)| - 1 :: |Chunks(queue)[i]| == BatchSize
    decreases |queue|
  {
    if |queue| > 0 {
      var n := Min(BatchSize, |queue|);
      var cs := Chunks(queue);
      ChunksPartitionQueue(queue[n..]);
      assert cs[1..] == Chunks(queue[n..]);
      assert queue[..n] + queue[n..] == queue;
      forall i | 0 <= i < |cs| ensures 0 < |cs[i]| <= BatchSize {
        if i > 0 { assert cs[i] == Chunks(queue[n..])[i - 1]; }
      }
      forall i | 0 <= i < |cs| - 1 ensures |cs[i]| == BatchSize {
        if i > 0 { assert cs[i] == Chunks(queue[n..])[i - 1]; }
      }
    }
  }

  /** The fetch outcomes of a batch, one per symbol. */
  function Fetches(batch: seq<string>, respond: string -> QuoteFetch): (o: seq<QuoteFetch>)
    ensures |o| == |batch|
  {
    seq(|batch|, i requires 0 <= i < |batch| => respond(batch[i]))
  }

  /** What a run did: the batches fetched, the pauses waited, and where it ended. */
  datatype Trace = Trace(batches: seq<seq<string>>, pauses: nat, final: State)

  /** Settle the batch in flight; if symbols remain, let the pause elapse (which
      drains the next batch) and continue. */
  function Run(s: State, respond: string -> QuoteFetch): Trace
    requires s.phase.Fetching?
    decreases |s.queue|
  {
    var settled := Settle(s, Fetches(s.phase.batch, respond));
    if settled.phase.Idle? then Trace([s.phase.batch], 0, settled)
    else
      var next := CooldownElapsed(settled);
      var rest := Run(next, respond);
      Trace([s.phase.batch] + rest.batches, rest.pauses + 1, rest.final)
  }

  lemma SpendTwice(budget: nat, a: nat, b: nat)
    ensures Spend(Spend(budget, a), b) == Spend(budget, a + b)
  {
  }

  lemma FetchesAppend(a: seq<string>, b: seq<string>, respond: string -> QuoteFetch)
    ensures Fetches(a + b, respond) == Fetches(a, respond) + Fetches(b, respond)
  {
  }

  /** The state a run from `s` continues from once the current batch has settled and
      the pause has elapsed, when symbols remain. */
  lemma RunStep(s: State, respond: string -> QuoteFetch)
    requires s.phase.Fetching? && |s.queue| > 0
    ensures Settle(s, Fetches(s.phase.batch, respond)).phase == CoolingDown
    ensures CooldownElapsed(Settle(s, Fetches(s.phase.batch, respond))).phase.Fetching?
    ensures CooldownElapsed(Settle(s, Fetches(s.phase.batch, respond))).phase.batch
      + CooldownElapsed(Settle(s, Fetches(s.phase.batch, respond))).queue == s.queue
    ensures |CooldownElapsed(Settle(s, Fetches(s.phase.batch, respond))).phase.batch|
      == Min(BatchSize, |s.queue|)
    ensures Run(s, respond) ==
      var rest := Run(CooldownElapsed(Settle(s, Fetches(s.phase.batch, respond))), respond);
      Trace([s.phase.batch] + rest.batches, rest.pauses + 1, rest.final)
  {
  }

  /** The batch in flight is the first chunk of what is pending. */
  predicate FirstChunk(s: State) {
    && s.phase.Fetching?
    && 0 < |s.phase.batch| <= BatchSize
    && (|s.queue| > 0 ==> |s.phase.batch| == BatchSize)
  }

  lemma ChunksCons(b: seq<string>, q: seq<string>)
    requires 0 < |b| <= BatchSize && (|q| > 0 ==> |b| == BatchSize)
    ensures Chunks(b + q) == [b] + Chunks(q)
  {
    var n := Min(BatchSize, |b + q|);
    assert n == |b|;
    assert (b + q)[..n] == b;
    assert (b + q)[n..] == q;
  }

  lemma {:induction false} RunBatches(s: State, respond: string -> QuoteFetch)
    requires FirstChunk(s)
    ensures Run(s, respond).batches == Chunks(s.phase.batch + s.queue)
    ensures Run(s, respond).pauses == |Run(s, respond).batches| - 1
    decreases |s.queue|
  {
    ChunksCons(s.phase.batch, s.queue);
    if |s.queue| > 0 {
      RunStep(s, respond);
      var next := CooldownElapsed(Settle(s, Fetches(s.phase.batch, respond)));
      RunBatches(next, respond);
    }
  }

  lemma {:induction false} RunEndsIdle(s: State, respond: string -> QuoteFetch)
    requires FirstChunk(s)
    ensures Run(s, respond).final.phase == Idle && Run(s, respond).final.queue == []
    ensures Run(s, respond).final.callsRemaining == Spend(s.callsRemaining, |s.phase.batch| + |s.queue|)
    decreases |s.queue|
  {
    if |s.queue| > 0 {
      RunStep(s, respond);
      var next := CooldownElapsed(Settle(s, Fetches(s.phase.batch, respond)));
      RunEndsIdle(next, respond);
      SpendTwice(s.callsRemaining, |s.phase.batch|, |s.queue|);
    }
  }

  lemma {:induction false} RunStocks(s: State, respond: string -> QuoteFetch)
    requires FirstChunk(s)
    ensures Latest(Run(s, respond).final.stocks) ==
      Latest(s.stocks) + Latest(Successes(Fetches(s.phase.batch + s.queue, respond)))
    decreases |s.queue|
  {
    var b, q := s.phase.batch, s.queue;
    if |q| == 0 {
      assert b + q == b;
    } else {
      RunStep(s, respond);
      var settled := Settle(s, Fetches(b, respond));
      var next := CooldownElapsed(settled);
      var okB, okQ := Successes(Fetches(b, respond)), Successes(Fetches(q, respond));
      RunStocks(next, respond);
      assert Run(s, respond).final == Run(next, respond).final;
      assert next.stocks == settled.stocks;
      assert Latest(settled.stocks) == Latest(s.stocks) + Latest(okB);
      assert Successes(Fetches(b + q, respond)) == okB + okQ by {
        FetchesAppend(b, q, respond);
        SuccessesAppend(Fetches(b, respond), Fetches(q, respond));
      }
      LatestAppend(okB, okQ);
      OverrideAssociates(Latest(s.stocks), Latest(okB), Latest(okQ));
    }
  }

  lemma OverrideAssociates<K, V>(a: map<K, V>, b: map<K, V>, c: map<K, V>)
    ensures (a + b) + c == a + (b + c)
  {
  }

  /** A drain started on an idle dashboard with n pending symbols fetches them in
      batches of five in queue order, pauses between consecutive batches, ends idle
      with nothing pending, charges n calls to the budget, and leaves a watch-list
      in which each fetched symbol shows its latest successful quote. */
  lemma RunFollowsChunks(s: State, respond: string -> QuoteFetch)
    requires !Processing(s) && |s.queue| > 0
    ensures Drain(s).phase.Fetching?
    ensures Run(Drain(s), respond).batches == Chunks(s.queue)
    ensures Run(Drain(s), respond).pauses == |Chunks(s.queue)| - 1
    ensures Run(Drain(s), respond).final.phase == Idle && Run(Drain(s), respond).final.queue == []
    ensures Run(Drain(s), respond).final.callsRemaining == Spend(s.callsRemaining, |s.queue|)
    ensures Latest(Run(Drain(s), respond).final.stocks) ==
      Latest(s.stocks) + Latest(Successes(Fetches(s.queue, respond)))
  {
    RunBatches(Drain(s), respond);
    RunEndsIdle(Drain(s), respond);
    RunStocks(Drain(s), respond);
  }

  /** Twelve pending symbols drain as batches of 5, 5 and 2 with two pauses, and a
      full budget is left with 13 calls. */
  lemma TwelveSymbols(s: State, respond: string -> QuoteFetch)
    requires !Processing(s) && |s.queue| == 12 && s.callsRemaining == DailyCallBudget
    ensures Drain(s).phase.Fetching?
    ensures Sizes(Run(Drain(s), respond).batches) == [5, 5, 2]
    ensures Run(Drain(s), respond).pauses == 2
    ensures Run(Drain(s), respond).final.callsRemaining == 13
  {
    RunFollowsChunks(s, respond);
    var q := s.queue;
    assert Chunks(q[10..]) == [q[10..]] by {
      assert q[10..][..2] == q[10..];
      assert Chunks(q[10..][2..]) == [];
    }
    assert Chunks(q[5..]) == [q[5..10]] + Chunks(q[10..]) by {
      assert q[5..][..5] == q[5..10];
      assert q[5..][5..] == q[10..];
    }
    assert Chunks(q) == [q[..5], q[5..10], q[10..]];
  }
}

=== FILE: quote_route.dfy ===
/** `GET /api/stock?symbol=…`: validate the symbol, require the key, serve a fresh
    cached quote, otherwise fetch and parse it, cache it, and map failures to statuses. */
module QuoteRoute {
  import opened Outcomes
  import opened Text
  import opened Json
  import opened TtlCache
  import opened Http
  import opened Failures
  import opened AlphaVantage

  /** Five minutes, in milliseconds. */
  const QuoteTtl: nat := 5 * 60 * 1000

  const QuoteFallbackText := "Failed to fetch stock data"

  function QuoteKey(symbol: string): string {
    "stock_" + symbol
  }

  function NotFoundText(symbol: string): string {
    "Stock data not found for symbol: " + symbol
  }

  /** The handler. `now` is `Date.now()`, `clock` the ISO time `parseGlobalQuote`
      stamps, `upstream` what the provider call would return if it were made. */
  function Get(param: Option<string>, apiKey: Option<string>, cache: Cache<Quote>, now: int,
               clock: string, upstream: Upstream): (h: Handled<Quote>)
    ensures ParamMissing(param) ==> h == Handled(Reply(StatusBadRequest, ErrorBody(SymbolRequiredText)), cache)
    ensures !ParamMissing(param) && !KeyConfigured(apiKey) ==>
      h == Handled(Reply(StatusServerError, ErrorBody(KeyNotConfiguredText)), cache)
    ensures h.reply.status != StatusOk ==> h.cache == cache
    ensures h.reply.status == StatusOk ==> (
      && h.reply.body.Data?
      && var key := QuoteKey(ToUpper(param.value));
      && key in h.cache && h.cache[key].data == h.reply.body.value
      && h.cache.Keys == cache.Keys + {key}
      && forall k | k in cache && k != key :: h.cache[k] == cache[k])
    ensures h.reply.status in {StatusOk, StatusBadRequest, StatusNotFound, StatusTooManyRequests, StatusServerError}
  {
    var symbol := Symbol(param);
    if symbol.None? || symbol.value == "" then
      Handled(Reply(StatusBadRequest, ErrorBody(SymbolRequiredText)), cache)
    else if !KeyConfigured(apiKey) then
      Handled(Reply(StatusServerError, ErrorBody(KeyNotConfiguredText)), cache)
    else
      var key := QuoteKey(symbol.value);
      match TtlCache.Get(cache, key, now, QuoteTtl)
      case Some(stored) => Handled(Reply(StatusOk, Data(stored)), cache)
      case None =>
        var fetched := Fetch(GlobalQuote(symbol.value), apiKey, upstream);
        var parsed := if fetched.Ok? then ParseGlobalQuote(fetched.value, symbol.value, clock) else Err(fetched.message);
        match parsed
        case Ok(quote) => Handled(Reply(StatusOk, Data(quote)), Put(cache, key, quote, now))
        case Err(m) =>
          Handled(ErrorReply(Classify(ErrorObject(m), true), NotFoundText(symbol.value), QuoteFallbackText), cache)
  }

  /** A fresh cache entry is served verbatim and the provider is not consulted: the
      reply is the same whatever the provider would have answered. */
  lemma CacheHitServesStoredQuote(param: Option<string>, apiKey: Option<string>, cache: Cache<Quote>,
                                  now: int, clock: string, upstream: Upstream)
    requires !ParamMissing(param) && KeyConfigured(apiKey)
    requires var key := QuoteKey(ToUpper(param.value));
      key in cache && now - cache[key].timestamp < QuoteTtl
    ensures Get(param, apiKey, cache, now, clock, upstream) ==
      Handled(Reply(StatusOk, Data(cache[QuoteKey(ToUpper(param.value))].data)), cache)
  {
  }

  /** On a miss the parsed quote is returned and stored under the key with the time
      of the request, overwriting any stale entry. */
  lemma MissStoresParsedQuote(param: Option<string>, apiKey: Option<string>, cache: Cache<Quote>,
                              now: int, clock: string, status: nat, data: Json)
    requires !ParamMissing(param) && KeyConfigured(apiKey)
    requires TtlCache.Get(cache, QuoteKey(ToUpper(param.value)), now, QuoteTtl).None?
    requires Fetch(GlobalQuote(ToUpper(param.value)), apiKey, Responded(status, Parsed(data))) == Ok(data)
    requires ParseGlobalQuote(data, ToUpper(param.value), clock).Ok?
    ensures var quote := ParseGlobalQuote(data, ToUpper(param.value), clock).value;
      Get(param, apiKey, cache, now, clock, Responded(status, Parsed(data))) ==
        Handled(Reply(StatusOk, Data(quote)), cache[QuoteKey(ToUpper(param.value)) := Entry(quote, now)])
  {
  }

  /** A second request for the same symbol within five minutes of a successful
      fetch gets the same reply without reaching the provider. */
  lemma {:induction false} RepeatWithinTtlIsServedFromCache(param: Option<string>, apiKey: Option<string>,
      cache: Cache<Quote>, now: int, clock: string, upstream: Upstream,
      later: int, laterClock: string, laterUpstream: Upstream)
    requires !ParamMissing(param)
    requires TtlCache.Get(cache, QuoteKey(ToUpper(param.value)), now, QuoteTtl).None?
    requires Get(param, apiKey, cache, now, clock, upstream).reply.status == StatusOk
    requires later - now < QuoteTtl
    ensures var first := Get(param, apiKey, cache, now, clock, upstream);
      Get(param, apiKey, first.cache, later, laterClock, laterUpstream).reply == first.reply
  {
    var first := Get(param, apiKey, cache, now, clock, upstream);
    var key := QuoteKey(ToUpper(param.value));
    assert first.cache[key] == Entry(first.reply.body.value, now);
  }

  /** A provider answer without a quote becomes a 404 naming the upper-cased symbol:
      the "No data found" text can never be mistaken for a credential or rate-limit
      failure, because an upper-cased symbol has no lower-case letters. */
  lemma MissingQuoteIsNotFound(param: Option<string>, apiKey: Option<string>, cache: Cache<Quote>,
                               now: int, clock: string, status: nat, data: Json)
    requires !ParamMissing(param) && KeyConfigured(apiKey)
    requires TtlCache.Get(cache, QuoteKey(ToUpper(param.value)), now, QuoteTtl).None?
    requires Fetch(GlobalQuote(ToUpper(param.value)), apiKey, Responded(status, Parsed(data))) == Ok(data)
    requires QuoteMissing(data)
    ensures Get(param, apiKey, cache, now, clock, Responded(status, Parsed(data))) ==
      Handled(Reply(StatusNotFound, ErrorBody(NotFoundText(ToUpper(param.value)))), cache)
  {
    var symbol := ToUpper(param.value);
    var prefix := "No data found for symbol: ";
    var m := NoDataText(symbol);
    assert m == prefix + symbol;
    ToUpperHasNoLower(symbol);
    MarkerAbsentAfterPrefix(prefix, symbol, InvalidKeyMarker, 1);
    MarkerAbsentAfterPrefix(prefix, symbol, PremiumMarker, 1);
    MarkerAbsentAfterPrefix(prefix, symbol, FrequencyMarker, 1);
    assert prefix + symbol == NoDataMarker + (" for symbol: " + symbol);
    ContainsPrefix(NoDataMarker, " for symbol: " + symbol);
    assert Classify(ErrorObject(m), true) == NoData;
  }

  /** On a miss, a fetch or parse that throws answers the classified error for its
      message, and the cache is left as it was. */
  lemma FailureIsClassified(param: Option<string>, apiKey: Option<string>, cache: Cache<Quote>,
                            now: int, clock: string, upstream: Upstream)
    requires !ParamMissing(param) && KeyConfigured(apiKey)
    requires TtlCache.Get(cache, QuoteKey(ToUpper(param.value)), now, QuoteTtl).None?
    ensures var symbol := ToUpper(param.value);
      var fetched := Fetch(GlobalQuote(symbol), apiKey, upstream);
      fetched.Err? ==> (Get(param, apiKey, cache, now, clock, upstream) ==
        Handled(ErrorReply(Classify(ErrorObject(fetched.message), true), NotFoundText(symbol), QuoteFallbackText), cache))
    ensures var symbol := ToUpper(param.value);
      var fetched := Fetch(GlobalQuote(symbol), apiKey, upstream);
      fetched.Ok? && ParseGlobalQuote(fetched.value, symbol, clock).Err? ==>
        (Get(param, apiKey, cache, now, clock, upstream) ==
        Handled(ErrorReply(Classify(ErrorObject(ParseGlobalQuote(fetched.value, symbol, clock).message), true),
                           NotFoundText(symbol), QuoteFallbackText), cache))
  {
  }

  /** The provider's call-frequency or premium notice, sent as "Information", reaches the
      client as a 429 with the rate-limit text, and nothing is cached. */
  lemma RateLimitNoticeIsTooManyRequests(param: Option<string>, apiKey: Option<string>, cache: Cache<Quote>,
                                         now: int, clock: string, status: nat, data: Json, text: string)
    requires !ParamMissing(param) && KeyConfigured(apiKey) && IsOk(status)
    requires TtlCache.Get(cache, QuoteKey(ToUpper(param.value)), now, QuoteTtl).None?
    requires !Truthy(Member(data, ErrorMessageField)) && Member(data, InformationField) == Some(JStr(text))
    requires Contains(text, FrequencyMarker) || Contains(text, PremiumMarker)
    requires !Contains(text, InvalidKeyMarker)
    ensures Get(param, apiKey, cache, now, clock, Responded(status, Parsed(data))) ==
      Handled(Reply(StatusTooManyRequests, ErrorBody(RateLimitedText)), cache)
  {
    assert text != "";
    InformationIsThrown(GlobalQuote(ToUpper(param.value)), apiKey, status, data, JStr(text));
    FailureIsClassified(param, apiKey, cache, now, clock, Responded(status, Parsed(data)));
  }
}

=== FILE: search_route.dfy ===
/** `GET /api/stock/search?query=…`: the provider's `bestMatches` list is projected
    field by field; the cache key lower-cases the query, so queries that differ only
    in letter case share one entry. */
module SearchRoute {
  import opened Outcomes
  import opened Text
  import opened Json
  import opened TtlCache
  import opened Http
  import opened Failures
  import opened AlphaVantage

  /** Twenty-four hours, in milliseconds. */
  const SearchTtl: nat := 24 * 60 * 60 * 1000

  const QueryRequiredText := "Search query is required"
  const SearchFallbackText := "Failed to search stocks"
  const MatchesField := "bestMatches"

  /** Message of the `TypeError` from calling `.map` on a truthy non-array value. */
  const NotAFunctionText := "matches.map is not a function"

  /** One search match; each field is the provider value copied as is. */
  datatype Match = Match(
    symbol: Option<Json>,
    name: Option<Json>,
    assetType: Option<Json>,
    region: Option<Json>,
    currency: Option<Json>)

  datatype SearchResults = SearchResults(results: seq<Match>)

  function SearchKey(query: string): string {
    "search_" + ToLower(query)
  }

  /** Two characters are the same up to ASCII letter case. */
  predicate SameIgnoringCase(c: char, d: char) {
    || c == d
    || (IsUpperAscii(c) && d as int == c as int + 32)
    || (IsLowerAscii(c) && d as int == c as int - 32)
  }

  predicate EqualIgnoringCase(a: string, b: string) {
    |a| == |b| && forall i | 0 <= i < |a| :: SameIgnoringCase(a[i], b[i])
  }

  /** Two queries share a cache key exactly when they differ only in letter case. */
  lemma SearchKeyIgnoresCase(a: string, b: string)
    ensures SearchKey(a) == SearchKey(b) <==> EqualIgnoringCase(a, b)
  {
    if SearchKey(a) == SearchKey(b) {
      assert ToLower(a) == SearchKey(a)[7..] == SearchKey(b)[7..] == ToLower(b);
      assert |a| == |ToLower(a)|;
      forall i | 0 <= i < |a| ensures SameIgnoringCase(a[i], b[i]) {
        assert LowerChar(a[i]) == ToLower(a)[i] == ToLower(b)[i] == LowerChar(b[i]);
      }
    }
    if EqualIgnoringCase(a, b) {
      forall i | 0 <= i < |a| ensures ToLower(a)[i] == ToLower(b)[i] {
        assert SameIgnoringCase(a[i], b[i]);
      }
      assert ToLower(a) == ToLower(b);
    }
  }

  /** `{ symbol: match["1. symbol"], … }`; reading a field of `null` throws. */
  function Project(item: Json): Result<Match> {
    if item.JNull? then Err(TypeErrorMessage)
    else Ok(Match(Member(item, "1. symbol"), Member(item, "2. name"), Member(item, "3. type"),
                  Member(item, "4. region"), Member(item, "8. currency")))
  }

  /** `matches.map(...)`: one projection per match, same order, or the first exception. */
  function ProjectAll(items: seq<Json>): (r: Result<seq<Match>>)
    ensures r.Ok? <==> forall k | 0 <= k < |items| :: !items[k].JNull?
    ensures r.Ok? ==> |r.value| == |items|
    ensures r.Ok? ==> forall k | 0 <= k < |items| :: Project(items[k]) == Ok(r.value[k])
    decreases |items|
  {
    if |items| == 0 then Ok([])
    else match Project(items[0])
      case Err(m) => Err(m)
      case Ok(first) =>
        match ProjectAll(items[1..])
        case Err(m) => Err(m)
        case Ok(rest) => Ok([first] + rest)
  }

  /** `{ results: (data["bestMatches"] || []).map(...) }`. */
  function Results(bestMatches: Option<Json>): Result<SearchResults> {
    if !Truthy(bestMatches) then Ok(SearchResults([]))
    else match bestMatches.value
      case JArr(items) =>
        (match ProjectAll(items)
         case Ok(results) => Ok(SearchResults(results))
         case Err(m) => Err(m))
      case _ => Err(NotAFunctionText)
  }

  /** An absent or empty match list is an empty result, not an error; a list of
      non-null matches is projected element by element, in order. */
  lemma ResultsProjectEachMatch(bestMatches: Option<Json>)
    ensures !Truthy(bestMatches) ==> Results(bestMatches) == Ok(SearchResults([]))
    ensures bestMatches.Some? && bestMatches.value.JArr? ==>
      var items := bestMatches.value.items;
      && (Results(bestMatches).Ok? <==> forall k | 0 <= k < |items| :: !items[k].JNull?)
      && (Results(bestMatches).Ok? ==>
          var results := Results(bestMatches).value.results;
          && |results| == |items|
          && forall k | 0 <= k < |items| ::
               results[k].symbol == Member(items[k], "1. symbol")
               && results[k].name == Member(items[k], "2. name")
               && results[k].assetType == Member(items[k], "3. type")
               && results[k].region == Member(items[k], "4. region")
               && results[k].currency == Member(items[k], "8. currency"))
  {
    if bestMatches.Some? && bestMatches.value.JArr? {
      var items := bestMatches.value.items;
      var r := ProjectAll(items);
      if r.Ok? {
        forall k | 0 <= k < |items| ensures Project(items[k]) == Ok(r.value[k]) {
        }
      }
    }
  }

  function CatchReply(message: string): (r: Reply<SearchResults>)
    ensures r.status in {StatusTooManyRequests, StatusServerError}
  {
    ErrorReply(Classify(ErrorObject(message), false), "", SearchFallbackText)
  }

  /** The handler; `upstream` is what the provider call would return if made. */
  function Get(param: Option<string>, apiKey: Option<string>, cache: Cache<SearchResults>, now: int,
               upstream: Upstream): (h: Handled<SearchResults>)
    ensures ParamMissing(param) ==> h == Handled(Reply(StatusBadRequest, ErrorBody(QueryRequiredText)), cache)
    ensures !ParamMissing(param) && !KeyConfigured(apiKey) ==>
      h == Handled(Reply(StatusServerError, ErrorBody(KeyNotConfiguredText)), cache)
    ensures h.reply.status != StatusOk ==> h.cache == cache
    ensures h.reply.status == StatusOk ==> (
      && h.reply.body.Data?
      && var key := SearchKey(param.value);
      && key in h.cache && h.cache[key].data == h.reply.body.value
      && h.cache.Keys == cache.Keys + {key}
      && forall k | k in cache && k != key :: h.cache[k] == cache[k])
    ensures h.reply.status in {StatusOk, StatusBadRequest, StatusTooManyRequests, StatusServerError}
  {
    if param.None? || param.value == "" then
      Handled(Reply(StatusBadRequest, ErrorBody(QueryRequiredText)), cache)
    else if !KeyConfigured(apiKey) then
      Handled(Reply(StatusServerError, ErrorBody(KeyNotConfiguredText)), cache)
    else
      var key := SearchKey(param.value);
      match TtlCache.Get(cache, key, now, SearchTtl)
      case Some(stored) => Handled(Reply(StatusOk, Data(stored)), cache)
      case None =>
        match Fetch(SymbolSearch(param.value), apiKey, upstream)
        case Err(m) => Handled(CatchReply(m), cache)
        case Ok(data) =>
          match Results(Member(data, MatchesField))
          case Ok(results) => Handled(Reply(StatusOk, Data(results)), Put(cache, key, results, now))
          case Err(m) => Handled(CatchReply(m), cache)
  }

  /** A fresh cache entry is served verbatim and the provider is not consulted: the
      reply is the same whatever the provider would have answered. */
  lemma CacheHitServesStoredResults(param: Option<string>, apiKey: Option<string>, cache: Cache<SearchResults>,
                                    now: int, upstream: Upstream)
    requires !ParamMissing(param) && KeyConfigured(apiKey)
    requires var key := SearchKey(param.value);
      key in cache && now - cache[key].timestamp < SearchTtl
    ensures Get(param, apiKey, cache, now, upstream) ==
      Handled(Reply(StatusOk, Data(cache[SearchKey(param.value)].data)), cache)
  {
  }

  /** On a miss the provider's matches are projected, served and stored under the
      key with the time of the request: one result per match, in the provider's
      order, each copying its match's symbol, name, type, region and currency. */
  lemma MissServesProjectedMatches(param: Option<string>, apiKey: Option<string>, cache: Cache<SearchResults>,
                                   now: int, status: nat, data: Json, r: SearchResults)
    requires !ParamMissing(param)
    requires TtlCache.Get(cache, SearchKey(param.value), now, SearchTtl).None?
    requires Fetch(SymbolSearch(param.value), apiKey, Responded(status, Parsed(data))) == Ok(data)
    requires Results(Member(data, MatchesField)) == Ok(r)
    ensures Get(param, apiKey, cache, now, Responded(status, Parsed(data))) ==
      Handled(Reply(StatusOk, Data(r)), cache[SearchKey(param.value) := Entry(r, now)])
  {
  }

  /** A provider answer without `bestMatches` is a successful, cached empty result. */
  lemma NoMatchesIsEmptySuccess(param: Option<string>, apiKey: Option<string>, cache: Cache<SearchResults>,
                                now: int, status: nat, data: Json)
    requires !ParamMissing(param)
    requires TtlCache.Get(cache, SearchKey(param.value), now, SearchTtl).None?
    requires Fetch(SymbolSearch(param.value), apiKey, Responded(status, Parsed(data))) == Ok(data)
    requires Member(data, MatchesField).None?
    ensures Get(param, apiKey, cache, now, Responded(status, Parsed(data))) ==
      Handled(Reply(StatusOk, Data(SearchResults([]))), cache[SearchKey(param.value) := Entry(SearchResults([]), now)])
  {
  }

  /** After a fetched search, the same query in any letter case is answered from the
      cache for a day, with the same reply and without reaching the provider. */
  lemma {:induction false} CaseVariantServedFromCache(query: string, apiKey: Option<string>,
      cache: Cache<SearchResults>, now: int, upstream: Upstream,
      variant: string, later: int, laterUpstream: Upstream)
    requires query != ""
    requires TtlCache.Get(cache, SearchKey(query), now, SearchTtl).None?
    requires Get(Some(query), apiKey, cache, now, upstream).reply.status == StatusOk
    requires EqualIgnoringCase(query, variant)
    requires later - now < SearchTtl
    ensures var first := Get(Some(query), apiKey, cache, now, upstream);
      Get(Some(variant), apiKey, first.cache, later, laterUpstream).reply == first.reply
  {
    var first := Get(Some(query), apiKey, cache, now, upstream);
    SearchKeyIgnoresCase(query, variant);
    assert first.cache[SearchKey(query)] == Entry(first.reply.body.value, now);
  }

  /** On a miss, a fetch that throws, or a match list whose projection throws, answers
      the classified error for its message (this route has no not-found class), and the
      cache is left as it was. */
  lemma FailureIsClassified(param: Option<string>, apiKey: Option<string>, cache: Cache<SearchResults>,
                            now: int, upstream: Upstream)
    requires !ParamMissing(param) && KeyConfigured(apiKey)
    requires TtlCache.Get(cache, SearchKey(param.value), now, SearchTtl).None?
    ensures var fetched := Fetch(SymbolSearch(param.value), apiKey, upstream);
      fetched.Err? ==> (Get(param, apiKey, cache, now, upstream) ==
        Handled(ErrorReply(Classify(ErrorObject(fetched.message), false), "", SearchFallbackText), cache))
    ensures var fetched := Fetch(SymbolSearch(param.value), apiKey, upstream);
      var results := if fetched.Ok? then Results(Member(fetched.value, MatchesField)) else Ok(SearchResults([]));
      results.Err? ==> (Get(param, apiKey, cache, now, upstream) ==
        Handled(ErrorReply(Classify(ErrorObject(results.message), false), "", SearchFallbackText), cache))
  {
  }

  /** The provider's call-frequency or premium notice, sent as "Information", reaches the
      client as a 429 with the rate-limit text, and nothing is cached. */
  lemma RateLimitNoticeIsTooManyRequests(param: Option<string>, apiKey: Option<string>, cache: Cache<SearchResults>,
                                         now: int, status: nat, data: Json, text: string)
    requires !ParamMissing(param) && KeyConfigured(apiKey) && IsOk(status)
    requires TtlCache.Get(cache, SearchKey(param.value), now, SearchTtl).None?
    requires !Truthy(Member(data, ErrorMessageField)) && Member(data, InformationField) == Some(JStr(text))
    requires Contains(text, FrequencyMarker) || Contains(text, PremiumMarker)
    requires !Contains(text, InvalidKeyMarker)
    ensures Get(param, apiKey, cache, now, Responded(status, Parsed(data))) ==
      Handled(Reply(StatusTooManyRequests, ErrorBody(RateLimitedText)), cache)
  {
    assert text != "";
    InformationIsThrown(SymbolSearch(param.value), apiKey, status, data, JStr(text));
    FailureIsClassified(param, apiKey, cache, now, Responded(status, Parsed(data)));
  }
}

=== FILE: text.dfy ===
/** String operations of JavaScript that the system relies on, over `seq<char>`. */
module Text {

  /** `t` occurs in `s` starting at index `i`. */
  predicate OccursAt(s: string, t: string, i: nat) {
    i + |t| <= |s| && s[i..i + |t|] == t
  }

  /** `String.prototype.includes`: `t` is a substring of `s` (the empty string is in every string). */
  predicate Contains(s: string, t: string) {
    exists i: nat | i <= |s| :: OccursAt(s, t, i)
  }

  lemma ContainsPrefix(p: string, u: string)
    ensures Contains(p + u, p)
  {
    assert (p + u)[0..|p|] == p;
    assert OccursAt(p + u, p, 0);
  }

  lemma ContainsSuffix(p: string, u: string)
    ensures Contains(p + u, u)
  {
    assert (p + u)[|p|..|p| + |u|] == u;
    assert OccursAt(p + u, u, |p|);
  }

  predicate IsLowerAscii(c: char) { 'a' <= c <= 'z' }

  predicate IsUpperAscii(c: char) { 'A' <= c <= 'Z' }

  /** No character of `s` is a lower-case ASCII letter. */
  predicate NoLowerAscii(s: string) {
    forall i | 0 <= i < |s| :: !IsLowerAscii(s[i])
  }

  /** A marker that begins with a character absent from `p` and holds a lower-case
      letter never occurs in `p + u` when `u` has no lower-case letter: every window
      either starts inside `p` (wrong first character) or lies inside `u`. */
  lemma MarkerAbsentAfterPrefix(p: string, u: string, t: string, j: nat)
    requires |t| > 0 && t[0] !in p
    requires j < |t| && IsLowerAscii(t[j])
    requires NoLowerAscii(u)
    ensures !Contains(p + u, t)
  {
    var s := p + u;
    forall i: nat | i <= |s|
      ensures !OccursAt(s, t, i)
    {
      if i + |t| <= |s| {
        if i < |p| {
          assert s[i..i + |t|][0] == p[i];
        } else {
          assert s[i..i + |t|][j] == u[i + j - |p|];
        }
      }
    }
  }

  /** `toUpperCase` on one character; only ASCII letters are mapped. */
  function UpperChar(c: char): char {
    if IsLowerAscii(c) then (c as int - 32) as char else c
  }

  /** `toLowerCase` on one character; only ASCII letters are mapped. */
  function LowerChar(c: char): char {
    if IsUpperAscii(c) then (c as int + 32) as char else c
  }

  function ToUpper(s: string): string {
    seq(|s|, i requires 0 <= i < |s| => UpperChar(s[i]))
  }

  function ToLower(s: string): string {
    seq(|s|, i requires 0 <= i < |s| => LowerChar(s[i]))
  }

  lemma ToUpperHasNoLower(s: string)
    ensures NoLowerAscii(ToUpper(s))
  {
  }

  /** The ECMAScript WhiteSpace and LineTerminator code points, which `trim` removes. */
  predicate IsJsWhitespace(c: char) {
    c in {'\U{9}', '\U{A}', '\U{B}', '\U{C}', '\U{D}', '\U{20}', '\U{A0}',
          '\U{1680}', '\U{2000}', '\U{2001}', '\U{2002}', '\U{2003}', '\U{2004}', '\U{2005}',
          '\U{2006}', '\U{2007}', '\U{2008}', '\U{2009}', '\U{200A}', '\U{2028}', '\U{2029}',
          '\U{202F}', '\U{205F}', '\U{3000}', '\U{FEFF}'}
  }

  function TrimStart(s: string): string
    decreases |s|
  {
    if |s| > 0 && IsJsWhitespace(s[0]) then TrimStart(s[1..]) else s
  }

  function TrimEnd(s: string): string
    decreases |s|
  {
    if |s| > 0 && IsJsWhitespace(s[|s| - 1]) then TrimEnd(s[..|s| - 1]) else s
  }

  /** `String.prototype.trim`. */
  function Trim(s: string): string {
    TrimEnd(TrimStart(s))
  }

  predicate IsBlank(s: string) {
    forall i | 0 <= i < |s| :: IsJsWhitespace(s[i])
  }

  lemma {:induction false} TrimStartEmptyIffBlank(s: string)
    ensures TrimStart(s) == [] <==> IsBlank(s)
    decreases |s|
  {
    if |s| > 0 && IsJsWhitespace(s[0]) {
      TrimStartEmptyIffBlank(s[1..]);
      if IsBlank(s[1..]) {
        forall i | 0 <= i < |s| ensures IsJsWhitespace(s[i]) {
          if i > 0 { assert s[i] == s[1..][i - 1]; }
        }
      }
      if IsBlank(s) {
        forall i | 0 <= i < |s[1..]| ensures IsJsWhitespace(s[1..][i]) {
          assert s[1..][i] == s[i + 1];
        }
      }
    }
  }

  lemma {:induction false} TrimEndKeepsNonEmpty(s: string)
    requires !IsBlank(s)
    ensures TrimEnd(s) != []
    decreases |s|
  {
    if |s| > 0 && IsJsWhitespace(s[|s| - 1]) {
      var k :| 0 <= k < |s| && !IsJsWhitespace(s[k]);
      assert k < |s| - 1;
      assert s[..|s| - 1][k] == s[k];
      TrimEndKeepsNonEmpty(s[..|s| - 1]);
    }
  }

  /** `!query.trim()` holds exactly when every character of the query is white space. */
  lemma {:induction false} TrimEmptyIffBlank(s: string)
    ensures Trim(s) == [] <==> IsBlank(s)
  {
    TrimStartEmptyIffBlank(s);
    if !IsBlank(s) {
      var t := TrimStart(s);
      assert t != [];
      TrimStartIsSuffix(s);
      // the first character of the trimmed string is not white space
      assert !IsJsWhitespace(t[0]);
      TrimEndKeepsNonEmpty(t);
    }
  }

  lemma {:induction false} TrimStartIsSuffix(s: string)
    ensures TrimStart(s) != [] ==> !IsJsWhitespace(TrimStart(s)[0])
    decreases |s|
  {
    if |s| > 0 && IsJsWhitespace(s[0]) {
      TrimStartIsSuffix(s[1..]);
    }
  }

  /** `s.replace(c, "")` with a one-character string pattern: only the first occurrence goes. */
  function RemoveFirst(s: string, c: char): string
    decreases |s|
  {
    if |s| == 0 then s
    else if s[0] == c then s[1..]
    else [s[0]] + RemoveFirst(s[1..], c)
  }

  /** Nothing changes when `c` does not occur. */
  lemma {:induction false} RemoveFirstAbsent(s: string, c: char)
    requires c !in s
    ensures RemoveFirst(s, c) == s
    decreases |s|
  {
    if |s| > 0 {
      assert c !in s[1..];
      RemoveFirstAbsent(s[1..], c);
      assert s == [s[0]] + s[1..];
    }
  }

  /** When the first `c` is at index `i`, exactly that character is removed: everything
      before it and everything after it is kept, so a second `c` survives. */
  lemma {:induction false} RemoveFirstAt(s: string, c: char, i: nat)
    requires i < |s| && s[i] == c && c !in s[..i]
    ensures RemoveFirst(s, c) == s[..i] + s[i + 1..]
    decreases i
  {
    if i > 0 {
      assert s[0] == s[..i][0];
      assert s[1..][..i - 1] == s[1..i];
      assert c !in s[1..][..i - 1];
      RemoveFirstAt(s[1..], c, i - 1);
      assert s[..i] == [s[0]] + s[1..][..i - 1];
      assert s[i + 1..] == s[1..][i..];
    }
  }

  /** Lexicographic order on strings by code point. */
  predicate LexLe(a: string, b: string)
    decreases |a|
  {
    if |a| == 0 then true
    else if |b| == 0 then false
    else if a[0] != b[0] then a[0] < b[0]
    else LexLe(a[1..], b[1..])
  }

  lemma {:induction false} LexLeTotal(a: string, b: string)
    ensures LexLe(a, b) || LexLe(b, a)
    decreases |a|
  {
    if |a| > 0 && |b| > 0 && a[0] == b[0] {
      LexLeTotal(a[1..], b[1..]);
    }
  }

  lemma {:induction false} LexLeTransitive(a: string, b: string, c: string)
    requires LexLe(a, b) && LexLe(b, c)
    ensures LexLe(a, c)
    decreases |a|
  {
    if |a| > 0 && |b| > 0 && |c| > 0 && a[0] == b[0] && b[0] == c[0] {
      LexLeTransitive(a[1..], b[1..], c[1..]);
    }
  }

  function DigitChar(d: nat): char
    requires d < 10
  {
    ('0' as int + d) as char
  }

  /** The decimal rendering JavaScript gives a non-negative integer. */
  function NatToString(n: nat): (r: string)
    ensures |r| >= 1 && (n >= 10 <==> |r| >= 2)
    decreases n
  {
    if n < 10 then [DigitChar(n)] else NatToString(n / 10) + [DigitChar(n % 10)]
  }

  function IntToString(n: int): string {
    if n < 0 then "-" + NatToString(-n) else NatToString(n)
  }

  /** Distinct numbers have distinct renderings. */
  lemma {:induction false} NatToStringInjective(a: nat, b: nat)
    ensures NatToString(a) == NatToString(b) ==> a == b
    decreases a
  {
    if NatToString(a) == NatToString(b) {
      if a >= 10 && b >= 10 {
        var sa, sb := NatToString(a), NatToString(b);
        assert sa[|sa| - 1] == DigitChar(a % 10) && sb[|sb| - 1] == DigitChar(b % 10);
        assert sa[..|sa| - 1] == NatToString(a / 10) && sb[..|sb| - 1] == NatToString(b / 10);
        NatToStringInjective(a / 10, b / 10);
      }
    }
  }
}

=== FILE: ttl_cache.dfy ===
/** The in-memory response cache each route keeps: a map from a namespaced key to the
    payload and the millisecond time it was stored. The time-to-live belongs to the
    route, not to the cache; entries are never evicted, only ignored once stale. */
module TtlCache {
  import opened Outcomes

  datatype Entry<T> = Entry(data: T, timestamp: int)

  type Cache<T> = map<string, Entry<T>>

  /** A lookup hits only when the entry exists and is strictly younger than `ttl`. */
  function Get<T>(cache: Cache<T>, key: string, now: int, ttl: nat): Option<T> {
    if key in cache && now - cache[key].timestamp < ttl then Some(cache[key].data) else None
  }

  /** `cache.set(key, {data, timestamp: now})`. */
  function Put<T>(cache: Cache<T>, key: string, data: T, now: int): Cache<T> {
    cache[key := Entry(data, now)]
  }

  /** What was stored is read back verbatim until the time-to-live has elapsed, and
      not from then on. */
  lemma PutThenGet<T>(cache: Cache<T>, key: string, data: T, stored: int, now: int, ttl: nat)
    ensures now - stored < ttl ==> Get(Put(cache, key, data, stored), key, now, ttl) == Some(data)
    ensures now - stored >= ttl ==> Get(Put(cache, key, data, stored), key, now, ttl) == None
  {
  }

  /** Storing under one key leaves every other key's lookups unchanged. */
  lemma PutKeepsOtherKeys<T>(cache: Cache<T>, key: string, data: T, stored: int, other: string, now: int, ttl: nat)
    requires other != key
    ensures Get(Put(cache, key, data, stored), other, now, ttl) == Get(cache, other, now, ttl)
  {
  }

  /** Expiry is final: an entry that misses at some time misses at every later time,
      and a hit at some time was a hit at every earlier time. */
  lemma GetMonotone<T>(cache: Cache<T>, key: string, earlier: int, later: int, ttl: nat)
    requires earlier <= later
    ensures Get(cache, key, later, ttl).Some? ==> Get(cache, key, earlier, ttl) == Get(cache, key, later, ttl)
  {
  }
}

=== FILE: watchlist.dfy ===
/** The dashboard's list of quotes and how a batch of fetched quotes is merged into
    it: through a `Map` keyed by symbol, so a symbol already listed keeps its position
    and takes the new quote, and a new symbol is appended. */
module Watchlist {
  import opened Outcomes

  /** The dashboard's `StockData`; numeric fields are kept as their text. */
  datatype StockData = StockData(
    symbol: string,
    price: string,
    change: string,
    changePercent: string,
    previousClose: string,
    lastUpdated: string)

  function Symbols(list: seq<StockData>): set<string> {
    set i | 0 <= i < |list| :: list[i].symbol
  }

  /** No symbol is listed twice. */
  predicate Unique(list: seq<StockData>) {
    forall i, j | 0 <= i < j < |list| :: list[i].symbol != list[j].symbol
  }

  /** Position of the first stock listed under `symbol`. */
  function IndexOf(list: seq<StockData>, symbol: string): (r: Option<nat>)
    ensures r.None? <==> symbol !in Symbols(list)
    ensures r.Some? ==> r.value < |list| && list[r.value].symbol == symbol
    decreases |list|
  {
    if |list| == 0 then None
    else if list[0].symbol == symbol then Some(0)
    else
      var rest := IndexOf(list[1..], symbol);
      assert Symbols(list) == {list[0].symbol} + Symbols(list[1..]) by {
        forall x | x in Symbols(list) ensures x in {list[0].symbol} + Symbols(list[1..]) {
          var i :| 0 <= i < |list| && list[i].symbol == x;
          if i > 0 { assert list[1..][i - 1] == list[i]; }
        }
      }
      if rest.Some? then Some(rest.value + 1) else None
  }

  /** `symbolsMap.set(stock.symbol, stock)` followed by reading the values back. */
  function Upsert(list: seq<StockData>, stock: StockData): seq<StockData> {
    match IndexOf(list, stock.symbol)
    case Some(i) => list[i := stock]
    case None => list + [stock]
  }

  /** Upserting each stock in turn. */
  function UpsertAll(list: seq<StockData>, stocks: seq<StockData>): seq<StockData>
    decreases |stocks|
  {
    if |stocks| == 0 then list
    else Upsert(UpsertAll(list, stocks[..|stocks| - 1]), stocks[|stocks| - 1])
  }

  lemma SymbolsOfSnoc(init: seq<StockData>, last: StockData)
    ensures Symbols(init + [last]) == Symbols(init) + {last.symbol}
  {
    var list := init + [last];
    assert list[|init|] == last;
    forall x | x in Symbols(list) ensures x in Symbols(init) + {last.symbol} {
      var i :| 0 <= i < |list| && list[i].symbol == x;
      if i < |init| { assert init[i] == list[i]; }
    }
    forall x | x in Symbols(init) ensures x in Symbols(list) {
      var i :| 0 <= i < |init| && init[i].symbol == x;
      assert list[i] == init[i];
    }
  }

  /** The symbol-to-quote map a list stands for, a later quote overriding an earlier
      one: the reference meaning of the list. Its keys are the listed symbols. */
  function Latest(list: seq<StockData>): (m: map<string, StockData>)
    ensures m.Keys == Symbols(list)
    decreases |list|
  {
    if |list| == 0 then map[]
    else
      var init := list[..|list| - 1];
      SymbolsOfSnoc(init, list[|list| - 1]);
      assert list == init + [list[|list| - 1]];
      Latest(init)[list[|list| - 1].symbol := list[|list| - 1]]
  }

  /** Reading two lists one after the other: the later list's quotes win. */
  lemma {:induction false} LatestAppend(a: seq<StockData>, b: seq<StockData>)
    ensures Latest(a + b) == Latest(a) + Latest(b)
    decreases |b|
  {
    if |b| == 0 {
      assert a + b == a;
    } else {
      var init := b[..|b| - 1];
      var last := b[|b| - 1];
      LatestAppend(a, init);
      assert (a + b)[..|a + b| - 1] == a + init;
      assert (a + b)[|a + b| - 1] == last;
      MapOverrideUnion(Latest(a), Latest(init), last.symbol, last);
    }
  }

  /** In a list without repeated symbols, each symbol denotes the one quote listed. */
  lemma {:induction false} LatestOfUnique(list: seq<StockData>, i: nat)
    requires Unique(list) && i < |list|
    ensures Latest(list)[list[i].symbol] == list[i]
    decreases |list|
  {
    var last := |list| - 1;
    if i < last {
      var init := list[..last];
      LatestOfUnique(init, i);
      assert list[last].symbol != list[i].symbol;
    }
  }

  /** Upsert keeps every listed symbol at its position, and the quote too unless it is
      the upserted symbol's. */
  lemma UpsertKeepsPositions(list: seq<StockData>, stock: StockData)
    ensures |Upsert(list, stock)| >= |list|
    ensures forall i | 0 <= i < |list| :: Upsert(list, stock)[i].symbol == list[i].symbol
    ensures forall i | 0 <= i < |list| && list[i].symbol != stock.symbol :: Upsert(list, stock)[i] == list[i]
  {
  }

  lemma UpsertUnique(list: seq<StockData>, stock: StockData)
    requires Unique(list)
    ensures Unique(Upsert(list, stock))
  {
    var r := Upsert(list, stock);
    if IndexOf(list, stock.symbol).None? {
      forall i | 0 <= i < |list| ensures list[i].symbol != stock.symbol {
        assert list[i].symbol in Symbols(list);
      }
    }
  }

  /** On a list without repeated symbols, upsert overrides one key of the reference map. */
  lemma UpsertLatest(list: seq<StockData>, stock: StockData)
    requires Unique(list)
    ensures Latest(Upsert(list, stock)) == Latest(list)[stock.symbol := stock]
  {
    var r := Upsert(list, stock);
    match IndexOf(list, stock.symbol)
    case None =>
      assert r[..|r| - 1] == list;
    case Some(k) =>
      UpsertUnique(list, stock);
      assert Symbols(r) == Symbols(list) by {
        forall x | x in Symbols(list) ensures x in Symbols(r) {
          var i :| 0 <= i < |list| && list[i].symbol == x;
          assert r[i].symbol == x;
        }
        forall x | x in Symbols(r) ensures x in Symbols(list) {
          var i :| 0 <= i < |r| && r[i].symbol == x;
          assert list[i].symbol == x;
        }
      }
      forall x | x in Latest(r) ensures Latest(r)[x] == Latest(list)[stock.symbol := stock][x] {
        var i :| 0 <= i < |r| && r[i].symbol == x;
        LatestOfUnique(r, i);
        LatestOfUnique(list, i);
      }
  }

  lemma {:induction false} UpsertAllUnique(list: seq<StockData>, stocks: seq<StockData>)
    requires Unique(list)
    ensures Unique(UpsertAll(list, stocks))
    decreases |stocks|
  {
    if |stocks| > 0 {
      UpsertAllUnique(list, stocks[..|stocks| - 1]);
      UpsertUnique(UpsertAll(list, stocks[..|stocks| - 1]), stocks[|stocks| - 1]);
    }
  }

  /** Upserting a batch into a list without repeated symbols overrides the reference
      map with the batch's own map. */
  lemma {:induction false} UpsertAllLatest(list: seq<StockData>, stocks: seq<StockData>)
    requires Unique(list)
    ensures Latest(UpsertAll(list, stocks)) == Latest(list) + Latest(stocks)
    decreases |stocks|
  {
    if |stocks| > 0 {
      var init := stocks[..|stocks| - 1];
      var last := stocks[|stocks| - 1];
      UpsertAllLatest(list, init);
      UpsertAllUnique(list, init);
      UpsertLatest(UpsertAll(list, init), last);
      assert Latest(stocks) == Latest(init)[last.symbol := last];
      MapOverrideUnion(Latest(list), Latest(init), last.symbol, last);
    }
  }

  /** Upserting a batch keeps listed symbols at their positions, with their quotes
      unless the batch has one for them. */
  lemma MapOverrideUnion(a: map<string, StockData>, b: map<string, StockData>, k: string, v: StockData)
    ensures (a + b)[k := v] == a + b[k := v]
  {
  }

  lemma {:induction false} UpsertAllKeepsPositions(list: seq<StockData>, stocks: seq<StockData>)
    ensures |UpsertAll(list, stocks)| >= |list|
    ensures forall i | 0 <= i < |list| :: UpsertAll(list, stocks)[i].symbol == list[i].symbol
    ensures forall i | 0 <= i < |list| && list[i].symbol !in Symbols(stocks) :: UpsertAll(list, stocks)[i] == list[i]
    decreases |stocks|
  {
    if |stocks| > 0 {
      var init := stocks[..|stocks| - 1];
      var last := stocks[|stocks| - 1];
      UpsertAllKeepsPositions(list, init);
      UpsertKeepsPositions(UpsertAll(list, init), last);
      assert stocks == init + [last];
      SymbolsOfSnoc(init, last);
    }
  }

  /** Rebuilding a list without repeated symbols through the map gives it back. */
  lemma {:induction false} RebuildUnique(list: seq<StockData>)
    requires Unique(list)
    ensures UpsertAll([], list) == list
    decreases |list|
  {
    if |list| > 0 {
      var init := list[..|list| - 1];
      RebuildUnique(init);
      assert list[|list| - 1].symbol !in Symbols(init);
      assert list == init + [list[|list| - 1]];
    }
  }

  /** `Array.from(new Map([...prev, ...valid] keyed by symbol).values())`. */
  function Merge(prev: seq<StockData>, valid: seq<StockData>): seq<StockData> {
    UpsertAll(UpsertAll([], prev), valid)
  }

  /** The merged list never repeats a symbol; as a map it is the previous list
      overridden by the batch; it lists exactly the symbols of both; and symbols
      already listed keep their positions, and their quotes unless the batch has one. */
  lemma MergeSpec(prev: seq<StockData>, valid: seq<StockData>)
    ensures Unique(Merge(prev, valid))
    ensures Latest(Merge(prev, valid)) == Latest(prev) + Latest(valid)
    ensures Symbols(Merge(prev, valid)) == Symbols(prev) + Symbols(valid)
    ensures Unique(prev) ==> |Merge(prev, valid)| >= |prev|
    ensures Unique(prev) ==> forall i | 0 <= i < |prev| :: Merge(prev, valid)[i].symbol == prev[i].symbol
    ensures Unique(prev) ==> forall i | 0 <= i < |prev| && prev[i].symbol !in Symbols(valid) ::
      Merge(prev, valid)[i] == prev[i]
  {
    var base := UpsertAll([], prev);
    UpsertAllUnique([], prev);
    UpsertAllLatest([], prev);
    assert Latest(base) == Latest(prev);
    UpsertAllUnique(base, valid);
    UpsertAllLatest(base, valid);
    if Unique(prev) {
      RebuildUnique(prev);
      UpsertAllKeepsPositions(prev, valid);
    }
  }

  /** Upsert semantics of the merge, stated per symbol: a symbol in the batch maps to
      the batch's last quote for it; any other symbol keeps its previous quote. */
  lemma MergeIsKeyedUpsert(prev: seq<StockData>, valid: seq<StockData>, symbol: string)
    ensures symbol in Symbols(valid) ==>
      symbol in Symbols(Merge(prev, valid)) && Latest(Merge(prev, valid))[symbol] == Latest(valid)[symbol]
    ensures symbol !in Symbols(valid) && symbol in Symbols(prev) ==>
      symbol in Symbols(Merge(prev, valid)) && Latest(Merge(prev, valid))[symbol] == Latest(prev)[symbol]
    ensures symbol !in Symbols(valid) + Symbols(prev) ==> symbol !in Symbols(Merge(prev, valid))
  {
    MergeSpec(prev, valid);
  }
}
